=== FILE: README.md ===
# Release-notes scraper: the HTML-to-Markdown core

This project models, in Dafny, how `scraper.py` turns a parsed release-notes
page into Markdown. The model has four parts:

- **Locator** (`extract_main_content`): picks the content container. It takes the first
  `article`, else the first `main`, else the first `div` whose `id` is
  `content`, else the `body`. When none exists it fails with
  `NoContentContainer`, which stands for the `ValueError`.
- **Inline renderer** (`inline_to_markdown`): turns a node into a Markdown
  fragment. It handles bold, italics, code spans, links and line breaks, and
  copies text through unescaped.
- **Block renderer** (`block_to_markdown`): handles headings, paragraphs,
  bulleted and numbered lists with nesting, tables, `pre` code blocks and
  transparent containers. Each block collects a list of lines, drops the
  empty ones and joins the rest with newlines.
- **Assembler** (`html_to_markdown`): renders each element child of the
  container as a block and joins the non-empty blocks with newlines. It then
  dedents and strips the text and appends one newline.

The parsed page is a tree of `Node`s (`tree.dfy`): a text run, or an element
with its tag, attributes and ordered children. The parser queries become
functions over that tree: `find`, `find_all`, `find_all(recursive=False)`,
`get_text(sep)` and `get_text(strip=True)`. Python's string operations
(`strip`, `lstrip`, `rstrip`, `str.join`, `filter(None, ...)`, `str(int)`) are
modelled in `strings.dfy`. Whitespace is exactly what Python's
`str.isspace` accepts.

Files:

| file | module | contents |
|---|---|---|
| `wrappers.dfy` | `Wrappers` | `Option` and `Result` |
| `strings.dfy` | `Strings` | strip, join, filter, repeat, decimal digits |
| `tree.dfy` | `Tree` | nodes, queries, text extraction |
| `locator.dfy` | `Locator` | `extract_main_content` |
| `inline.dfy` | `Inline` | `inline_to_markdown` |
| `block.dfy` | `Block` | `block_to_markdown` |
| `block_props.dfy` | `BlockProps` | what each kind of block renders as |
| `assembler.dfy` | `Assembler` | `html_to_markdown` |

Five details of the code decide the output:

- **Content container.** `find("div", id="content")` only accepts a `div`.
  Another element with id `content` is not a candidate.
- **Joining blocks.** Blocks are joined with one newline, not a blank line.
  A block that ends in its own newline, such as a heading or paragraph, is
  still followed by a blank line; a list or table is not.
- **Code spans.** `get_text(strip=True)` strips every text run on its own
  and glues the results with nothing between them. `<code>a <b>b</b></code>`
  therefore renders as `` `ab` ``: the space between the runs is lost
  (`CodeSpanDropsSpaceBetweenRuns`).
- **Item without its own text.** The `strip` on an item's joined content
  also removes the newline and the deeper indentation in front of a nested
  list when nothing but whitespace comes before it, so the nested list's first
  bullet lands on the outer bullet's line (`OnlyNestedItemLine`,
  `BlankTextNestedItemLine`). For `<ul><li><ul><li>B</li></ul></li></ul>`,
  `OnlyNestedList` gives `- ` and the strip of the inner list, `SingleTextList`
  gives the inner list as `    - B`, and `NestedBulletsStrip` turns the two into
  `- - B`.
- **End marker.** The empty string that lists and tables append as an "end
  marker" is removed by `filter(None, lines)` and leaves no trace in the
  output (`ListShape`, `TableShape`, `ListNoNewlineAtEdges`).

## Model

| member | source | states |
|---|---|---|
| Tree.Select | scraper.py:68 | the selected nodes are exactly the nodes of the input that match the filter |
| Tree.FindAll | scraper.py:85-86 | `find_all` returns exactly the matching elements below the searched tag: every one of them, and nothing else |
| Tree.FindChildren | scraper.py:68 | `find_all(..., recursive=False)` returns exactly the matching direct children |
| Tree.FindIsFirstOfFindAll | scraper.py:19-22 | `find` (`Tree.Find`) returns the first element that `find_all` lists, and nothing when that list is empty |
| Tree.FindBelowIsFirst | scraper.py:19-22 | the search below one node (`Tree.FindBelow`) returns the first matching descendant of that node in document order |
| Tree.DescendantsOfAppend | scraper.py:85 | the document-order walk of two runs of siblings is the walk of the first followed by the walk of the second |
| Tree.GetTextOfText | scraper.py:96 | `get_text(sep)` (`Tree.GetText`) of a single text run is that run |
| Tree.GetTextAppend | scraper.py:96 | `get_text(sep)` of two runs of siblings is the text of each, with one separator between them when both hold text |
| Tree.StripEach | scraper.py:86 | each cell text is the strip of its rendering, so none has whitespace at either end |
| Tree.GetTextStripped | scraper.py:41 | `get_text(strip=True)` has no whitespace at either end; it is empty exactly when every text run is whitespace only |
| Tree.GetTextStrippedOfText | scraper.py:41 | `get_text(strip=True)` of a single text run is that run, stripped |
| Tree.GetTextStrippedAppend | scraper.py:41 | `get_text(strip=True)` of two runs of siblings is the stripped text of the first glued to that of the second, with nothing between them |
| Tree.TwoRunsStripped | scraper.py:41 | a text run followed by an element holding one run gives the two runs stripped on their own, with nothing between them |
| Tree.OneRunElementStripped | scraper.py:41 | an element holding one text run has that run, stripped, as its stripped text |
| Tree.StripEachAllEmpty | scraper.py:41 | after stripping every run, nothing is left exactly when every run was whitespace only |
| Locator.FirstFound | scraper.py:25-29 | the loop yields a candidate exactly when one exists, and what it yields is the first candidate that was found, every earlier one missing |
| Locator.FirstFoundOfFour | scraper.py:25-27 | the first found of four candidates, spelled out in priority order |
| Locator.FoundIsMatch | scraper.py:19-22 | what `find` returns matches the query and lies inside the document |
| Locator.Locate | scraper.py:15-29 | the container is an element of the document tagged `article`, `main`, `div` or `body` |
| Locator.LocatePriority | scraper.py:18-29 | first `article`, else first `main`, else first `div#content`, else first `body`, else the failure |
| Inline.Link | scraper.py:42-47 | a link is never empty; without a target it is the trimmed label or `link`; with one it is `[..](href)` around the stripped target |
| Inline.LinkFallbacks | scraper.py:43-47 | the four combinations of empty or non-empty label and target, each spelled out |
| Inline.LinkNeverEmpty | scraper.py:42-47 | an `a` element never renders as the empty string |
| Inline.RenderEach | scraper.py:86 | one rendering per cell, entry i being the rendering of cell i |
| Inline.RenderAllIsConcatOfEach | scraper.py:37-51 | the `''.join` over the children's renderings (`Inline.RenderAll`) equals joining the list of their renderings |
| Inline.TransparentTag | scraper.py:51 | an element without an inline tag (`Inline.Render` on its last branch) renders as its children's renderings, concatenated |
| Inline.RenderAllAppend | scraper.py:51 | rendering a run of siblings is the concatenation of rendering its parts |
| Inline.UnformattedRendersText | scraper.py:32-51 | a tree without formatting tags renders as its text: nothing is escaped, added or dropped |
| Inline.UnformattedNodeRendersText | scraper.py:33-34 | a single unformatted node renders as the concatenation of its text runs |
| Inline.EmphasisWrapsText | scraper.py:36-39 | bold and italic put `**` or `*` around the text of an unformatted tree |
| Inline.CodeSpanShape | scraper.py:40-41 | a code span is backticks around the children's `get_text(strip=True)`, which is trimmed, and it is empty exactly when the code is whitespace only |
| Inline.CodeSpanText | scraper.py:40-41 | any `code` element renders as its children's `get_text(strip=True)` between backticks, whatever its attributes |
| Inline.PlainTagRendersText | scraper.py:51 | a tag that is not one of the inline tags, over a subtree without formatting tags, renders as the subtree's text |
| Inline.CodeSpanDropsSpaceBetweenRuns | scraper.py:40-41 | `<code>a <b>b</b></code>` and its like render as the two runs stripped and glued, so the space between them is lost |
| Block.HeadingLevel | scraper.py:59 | the level is the tag's digit, from 1 to 6, and the tag is `h` followed by that number |
| Block.BulletShape | scraper.py:69 | a bullet is at least two characters, opens with a dash or a digit (so not with whitespace) and ends in a space |
| Block.BulletReadsBack | scraper.py:69 | `Block.Bullet` is `- ` for an unordered list; for an ordered one it is decimal digits that read back as the item number, then `. ` |
| Block.ItemLineShape | scraper.py:81 | an item line is indent and bullet followed by the stripped content, and never ends in a newline |
| Block.CellTexts | scraper.py:86 | one text per cell, entry i being the stripped inline rendering of cell i, so none has whitespace at either end |
| Block.RowsData | scraper.py:86 | one data row per `tr`, row i holding the cell texts of every `th` and `td` below row i |
| Block.Dashes | scraper.py:89 | one `---` per header cell |
| Block.RowLines | scraper.py:92-93 | each remaining row becomes its cells joined by a bar between spaces |
| Block.PreCode | scraper.py:96 | the code has no trailing whitespace |
| BlockProps.RenderEmptyIffNoLines | scraper.py:54-108 | a block (`Block.Render` over `Block.Lines`) renders as nothing exactly when every line it collects is empty |
| BlockProps.DepthIrrelevant | scraper.py:56-98 | headings, paragraphs, tables and `pre` blocks render the same at every nesting depth |
| BlockProps.HeadingShape | scraper.py:58-61 | an `hN` renders as N `#`, a space, the stripped inline text and a newline, at any depth |
| BlockProps.ParagraphShape | scraper.py:62-65 | a paragraph renders as nothing exactly when its stripped text is empty, and otherwise as that text and a newline |
| BlockProps.PlainParagraph | scraper.py:62-65 | a paragraph without formatting is its stripped plain text and a newline |
| BlockProps.ItemLinesFollowItems | scraper.py:68-82 | the list loop (`Block.ItemLines`): numbering while skipping non-`li` children equals selecting the direct `li` children first and then numbering them from `idx` |
| BlockProps.NumberedLinesCons | scraper.py:68-69 | the numbering is the first item's line followed by the rest numbered from the next number |
| BlockProps.ListShape | scraper.py:66-83 | a list is one non-empty line per direct `li` child, numbered from 1, joined by newlines; the end marker leaves no trace |
| BlockProps.ListLinePrefix | scraper.py:68-81 | line i opens with the depth's indentation and bullet number i + 1 |
| BlockProps.ListEmptyIffNoItems | scraper.py:66-83 | a list renders as nothing exactly when it has no direct `li` child |
| BlockProps.OnlyDirectItems | scraper.py:68 | the list has exactly as many lines as direct `li` children; an `li` further down is not an item |
| BlockProps.ItemLineEdges | scraper.py:81 | an item line is non-empty and neither begins nor ends with a newline |
| BlockProps.NumberedLinesEdges | scraper.py:81-83 | joined item lines neither begin nor end with a newline |
| BlockProps.ListNoNewlineAtEdges | scraper.py:66-83 | a rendered list neither begins nor ends with a newline |
| BlockProps.ListOpensWithFirstBullet | scraper.py:68-81 | a list with items opens with the depth's indentation and the first bullet |
| BlockProps.NestedListItem | scraper.py:71-81 | an item of text and a nested list has as content the text, a newline and the nested list rendered one level deeper |
| BlockProps.ItemPartsAppend | scraper.py:71-80 | the content parts of a split run of item children (`Block.ItemParts`) are the parts of each run, in order |
| BlockProps.NestedPart | scraper.py:75-78 | a list directly in an item (`Block.ItemPart`) contributes its rendering one level deeper after a newline, and nothing when that rendering is empty |
| BlockProps.NestedListAnywhere | scraper.py:71-81 | wherever a nested list stands among an item's children, the item content is the content before it, the nested part, and the content after it |
| BlockProps.NestedItemLine | scraper.py:75-81 | such an item's line is bullet, text without leading whitespace, newline, then the nested list's first line indented one level deeper |
| BlockProps.BlankHeadItemLine | scraper.py:81 | when the content before a nested list is blank, the `strip` removes it together with the newline and the deeper indentation: the line is bullet followed by the stripped nested list, which opens with its own bullet |
| BlockProps.BlankItemLine | scraper.py:75-81 | the same for any item content made of blank text, a newline and a non-empty nested list's rendering |
| BlockProps.OnlyNestedItemLine | scraper.py:71-81 | an item holding only a nested list gives one line: its bullet, then the nested list stripped, so the two bullets share the line |
| BlockProps.BlankTextNestedItemLine | scraper.py:71-81 | an item whose text before a nested list is whitespace only gives the same single line |
| BlockProps.OneItemFound | scraper.py:68 | `find_all("li", recursive=False)` on a lone `li` child finds exactly that child |
| BlockProps.SingleItemList | scraper.py:66-83 | a list with one `li` child renders as that item's line, numbered 1 |
| BlockProps.TextItemContent | scraper.py:71-73 | an item holding one text run has that run as its content |
| BlockProps.SingleTextList | scraper.py:66-83 | a bullet list of one plain-text item is the depth's indentation, `- ` and the stripped text |
| BlockProps.OnlyNestedList | scraper.py:66-83 | a bullet list whose one item holds only a non-empty list is the indentation, `- ` and the nested list's rendering stripped |
| BlockProps.TableShape | scraper.py:84-94 | no `tr` renders as nothing; otherwise header, separator sized to the header, and the other rows, empty lines dropped |
| BlockProps.TableLinesJoined | scraper.py:87-94 | the end marker of a table leaves no trace once lines are joined |
| BlockProps.SeparatorCells | scraper.py:89-91 | the separator is empty exactly for no cells; otherwise it has 3k dashes, k - 1 bars and length 6k - 3 |
| BlockProps.TableHeaderFirst | scraper.py:88-91 | a table with a non-empty header opens with the header line and, on the next line, the separator |
| BlockProps.PreShape | scraper.py:95-98 | a `pre` renders as nothing exactly when its text is whitespace only; otherwise as a fenced block around the right-stripped text |
| BlockProps.ContainerLinesAppend | scraper.py:100-106 | `Block.ContainerLines`: a container's lines for a split run of children are the lines of each part, in order |
| BlockProps.BlankAddsNoLines | scraper.py:103-106 | whitespace-only text children add no line |
| BlockProps.WrapperTransparent | scraper.py:99-102 | an unknown tag around one element with blank text around it renders as that element |
| BlockProps.ContainerText | scraper.py:103-106 | a non-blank text child renders indented, stripped and followed by a newline |
| Assembler.Blocks | scraper.py:113-118 | the collected blocks are non-empty and no more numerous than the children |
| Assembler.BlocksAppend | scraper.py:114-118 | blocks of a split run of children are the blocks of each part, in order |
| Assembler.Body | scraper.py:119 | the joined blocks are empty exactly when there is no block |
| Assembler.HtmlToMarkdown | scraper.py:111-120 | it succeeds exactly when a container exists and otherwise fails with `NoContentContainer`; the text ends in a newline with no whitespace at either end before it |
| Assembler.TextChildIgnored | scraper.py:114-115 | top-level text between blocks adds neither a block nor a separator |
| Assembler.BodyIsContainerBlock | scraper.py:113-119 | without top-level text, the assembled body equals what the block renderer makes of a `div` with the same children |
| Assembler.NoBlockNoBlocks | scraper.py:114-118 | children that render as nothing give no blocks |
| Assembler.EmptyContainerGivesNewline | scraper.py:117-120 | a container without a rendering child gives a lone newline |
| Assembler.SingleBlock | scraper.py:116-120 | a container with one element child gives that block, dedented and stripped, with one newline, whatever `dedent` does |
| Strings.SkipSpaces | scraper.py:43 | the scan stops at the first non-whitespace character and passes over only whitespace |
| Strings.BackSpaces | scraper.py:96 | the backward scan stops after the last non-whitespace character and passes over only whitespace |
| Strings.LStrip | scraper.py:81 | the result is the input with its leading whitespace cut off: a suffix of the input, everything before it whitespace, and it does not begin with whitespace |
| Strings.RStrip | scraper.py:96 | the result is the input with its trailing whitespace cut off: a prefix of the input, everything after it whitespace, and it does not end in whitespace |
| Strings.Strip | scraper.py:43-44 | the result has no whitespace at either end |
| Strings.StripIsStripOf | scraper.py:43-44 | the strip is a slice of the input with only whitespace cut away on either side, trimmed |
| Strings.StripUnique | scraper.py:43-44 | any such slice is the strip: strip is fully determined by that characterisation |
| Strings.StripBetween | scraper.py:43-44 | a trimmed slice with only whitespace before and after it is the strip |
| Strings.StripEmptyIffAllSpace | scraper.py:104-105 | the strip is empty exactly when the input is whitespace only |
| Strings.StripIsRStripOfLStrip | scraper.py:81 | strip equals rstrip after lstrip |
| Strings.RStripEmptyIffAllSpace | scraper.py:96-97 | the right strip is empty exactly when the input is whitespace only |
| Strings.NonEmpty | scraper.py:108 | `filter(None, ...)` keeps exactly the non-empty entries, and is empty exactly when all entries are |
| Strings.NonEmptyAppend | scraper.py:108 | filtering distributes over concatenation |
| Strings.JoinAppend | scraper.py:108 | joining two non-empty runs puts one separator between their joins |
| Strings.ConcatAppend | scraper.py:51 | `''.join` distributes over concatenation |
| Strings.JoinNonEmptyParts | scraper.py:108 | a join of non-empty parts is empty exactly when there are no parts |
| Strings.JoinLinesEmpty | scraper.py:108 | the joined lines are empty exactly when every line is |
| Strings.JoinLinesAppend | scraper.py:108 | joining lines collected in two runs puts one newline between the runs when both yield something |
| Strings.JoinLinesSkipsEmpty | scraper.py:83 | an empty line anywhere leaves the joined text unchanged |
| Strings.JoinEnds | scraper.py:108 | a join opens with its first part and ends with its last |
| Strings.JoinKeepsEdges | scraper.py:108 | a join whose outer parts do not touch a newline does not either |
| Strings.StripKeepsHead | scraper.py:81 | stripping a non-blank head followed by a rest that opens with a non-space keeps the head's lstrip and the rest's opening |
| Strings.LStripBlankHead | scraper.py:81 | whitespace put in front of a string does not change its `lstrip` |
| Strings.StripBlankHead | scraper.py:81 | whitespace put in front of a string does not change its `strip` |
| Strings.StripKeepsFirst | scraper.py:81 | a string opening with a non-space character keeps that character at the head of its `strip` |
| Strings.StripOpensAfterBlank | scraper.py:81 | a string made of whitespace, then a non-space character, then anything, has that character at the head of its `strip` |
| Strings.NestedBulletsStrip | scraper.py:81 | an outer bullet followed by the strip of a one-level-deeper bullet line `    - t` is `- - t` for any trimmed non-empty `t` |
| Strings.CountAppend | scraper.py:89-91 | counting a character distributes over concatenation |
| Strings.RepeatChar | scraper.py:60 | `c * n` has length n and only the character c |
| Strings.Indent | scraper.py:56 | exactly four U+0020 spaces per level, and nothing else |
| Strings.DigitChar | scraper.py:69 | a digit character for each value 0 to 9 |
| Strings.NatToStringDigits | scraper.py:69 | `str(idx)` is a non-empty string of digits with no leading zero |
| Strings.DecimalRoundTrip | scraper.py:69 | the decimal text of a number reads back as that number |

## Left out

- `fetch_html`, `scrape_release_notes`, `parse_args` and `main`: network and
  file I/O around the core.
- Parsing HTML into a tree: the model starts from the parsed tree. The
  locator receives the document's top-level nodes. `soup.body` is taken to be
  the first `body` element in document order.
- `textwrap.dedent` is a parameter of `Assembler.HtmlToMarkdown`, not a
  definition. Only `Assembler.EmptyContainerGivesNewline` requires anything of
  it: that it maps the empty string to itself, as `textwrap.dedent` does.
- Comments, CDATA and other `NavigableString` subclasses are ordinary text
  runs in the model. The parser-specific treatment of such nodes is out of
  scope.
- Python's recursion limit on very deep trees is not modelled: the model
  recurses without bound.
- Whitespace is the fixed list of code points for which Python's
  `str.isspace` holds: ASCII whitespace, U+001C to U+001F, U+0085, U+00A0
  and the Unicode space, line and paragraph separators. The list is written
  out rather than read from a Unicode database, so a future Unicode version
  that adds a space character is not followed.
- Attribute values other than `id` and `href` are ignored. A multi-valued
  attribute is a single string in the model.

=== FILE: assembler.dfy ===
/** The assembler of `html_to_markdown`: the blocks of the content container,
    joined by newlines, dedented and trimmed, with one final newline. */
module Assembler {
  import opened Wrappers
  import opened Strings
  import opened Tree
  import opened Locator
  import Block

  /** The non-empty block renderings of the element children, in order; text
      children are skipped. */
  function Blocks(cs: seq<Node>): (r: seq<string>)
    ensures forall i :: 0 <= i < |r| ==> r[i] != ""
    ensures |r| <= |cs|
  {
    if |cs| == 0 then []
    else if cs[0].Element? && Block.Render(cs[0], 0) != "" then [Block.Render(cs[0], 0)] + Blocks(cs[1..])
    else Blocks(cs[1..])
  }

  lemma {:induction false} BlocksAppend(a: seq<Node>, b: seq<Node>)
    ensures Blocks(a + b) == Blocks(a) + Blocks(b)
  {
    if |a| == 0 {
      assert a + b == b;
    } else {
      assert (a + b)[1..] == a[1..] + b;
      BlocksAppend(a[1..], b);
    }
  }

  /** `"\n".join(blocks)`: the Markdown before it is dedented and trimmed. */
  function Body(container: Node): (r: string)
    ensures r == "" <==> Blocks(Children(container)) == []
  {
    JoinNonEmptyParts(Blocks(Children(container)), "\n");
    Join(Blocks(Children(container)), "\n")
  }

  /** `html_to_markdown` on a parsed page; `textwrap.dedent` is the parameter
      `dedent`. The result ends in exactly one newline, with no whitespace
      before it or at the start; it fails exactly when the locator does. */
  function HtmlToMarkdown(doc: seq<Node>, dedent: string -> string): (r: Result<string, LocateError>)
    ensures r.Success? <==> Locate(doc).Success?
    ensures r.Failure? ==> r.error == NoContentContainer
    ensures r.Success? ==> |r.value| >= 1 && r.value[|r.value| - 1] == '\n' && Trimmed(r.value[..|r.value| - 1])
  {
    match Locate(doc)
    case Failure(e) => Failure(e)
    case Success(c) =>
      var text := Strip(dedent(Body(c)));
      assert (text + "\n")[..|text|] == text;
      Success(text + "\n")
  }

  /** Top-level text between the blocks of the container is dropped: it adds
      neither a block nor a separator. */
  lemma TextChildIgnored(a: seq<Node>, s: string, b: seq<Node>)
    ensures Blocks(a + [Text(s)] + b) == Blocks(a + b)
  {
    BlocksAppend(a + [Text(s)], b);
    BlocksAppend(a, [Text(s)]);
    BlocksAppend(a, b);
    assert [Text(s)][1..] == [];
    assert Blocks([Text(s)]) == [];
    assert Blocks(a) + [] == Blocks(a);
  }

  /** Nodes that are all elements. */
  predicate AllElements(cs: seq<Node>) {
    forall i :: 0 <= i < |cs| ==> cs[i].Element?
  }

  lemma {:induction false} BlocksAreContainerLines(cs: seq<Node>)
    requires AllElements(cs)
    ensures Blocks(cs) == NonEmpty(Block.ContainerLines(cs, 0))
  {
    if |cs| > 0 {
      BlocksAreContainerLines(cs[1..]);
      assert Block.ContainerLines(cs, 0) == [Block.Render(cs[0], 0)] + Block.ContainerLines(cs[1..], 0);
    }
  }

  /** Without top-level text, the body is what the block renderer makes of a
      plain container (a `div`) with the same children at depth zero: the
      assembler joins blocks exactly as the block renderer does. */
  lemma BodyIsContainerBlock(attrs: map<string, string>, cs: seq<Node>)
    requires AllElements(cs)
    ensures Body(Element("div", attrs, cs)) == Block.Render(Element("div", attrs, cs), 0)
  {
    BlocksAreContainerLines(cs);
    assert Block.Lines(Element("div", attrs, cs), 0) == Block.ContainerLines(cs, 0);
  }

  /** Nodes none of which renders as a block: text runs, and elements whose
      rendering is empty. */
  predicate NoBlock(cs: seq<Node>) {
    forall i :: 0 <= i < |cs| ==> cs[i].Text? || Block.Render(cs[i], 0) == ""
  }

  lemma {:induction false} NoBlockNoBlocks(cs: seq<Node>)
    requires NoBlock(cs)
    ensures Blocks(cs) == []
  {
    if |cs| > 0 {
      NoBlockNoBlocks(cs[1..]);
    }
  }

  /** A container with no child that renders as a block, in particular one with
      no element child, yields a lone newline (when dedent leaves the empty
      string alone). */
  lemma EmptyContainerGivesNewline(doc: seq<Node>, dedent: string -> string)
    requires Locate(doc).Success?
    requires NoBlock(Children(Locate(doc).value))
    requires dedent("") == ""
    ensures HtmlToMarkdown(doc, dedent) == Success("\n")
  {
    NoBlockNoBlocks(Children(Locate(doc).value));
    assert Strip("") == "";
  }

  /** A page whose content container holds a single element: the Markdown is
      that element's block, dedented and trimmed, with one newline. */
  lemma SingleBlock(doc: seq<Node>, dedent: string -> string, attrs: map<string, string>, tag: string, b: Node)
    requires Locate(doc) == Success(Element(tag, attrs, [b]))
    requires b.Element?
    ensures HtmlToMarkdown(doc, dedent) == Success(Strip(dedent(Block.Render(b, 0))) + "\n")
  {
    var cs := [b];
    assert cs[1..] == [];
    if Block.Render(b, 0) != "" {
      assert Blocks(cs) == [Block.Render(b, 0)];
    } else {
      assert Blocks(cs) == [];
    }
  }
}

=== FILE: block.dfy ===
/** The block renderer of `block_to_markdown`: one block-level element, at a
    list nesting depth, as Markdown lines. */
module Block {
  import opened Strings
  import opened Tree
  import Inline

  const HeadingTags: set<string> := {"h1", "h2", "h3", "h4", "h5", "h6"}

  const ItemQuery: Query := Named(["li"])
  const RowQuery: Query := Named(["tr"])
  const CellQuery: Query := Named(["th", "td"])

  /** `int(name[1])`: the digit after the `h` of a heading tag. */
  function HeadingLevel(tag: string): (level: nat)
    requires tag in HeadingTags
    ensures 1 <= level <= 6
    ensures tag == "h" + NatToString(level)
  {
    (tag[1] as int) - ('0' as int)
  }

  /** `f"{idx}. "` for an ordered list, `"- "` otherwise. */
  function Bullet(ordered: bool, idx: nat): string {
    if ordered then NatToString(idx) + ". " else "- "
  }

  /** A bullet opens with a dash or a digit and ends with a space. */
  lemma BulletShape(ordered: bool, idx: nat)
    ensures |Bullet(ordered, idx)| >= 2
    ensures Bullet(ordered, idx)[|Bullet(ordered, idx)| - 1] == ' '
    ensures Bullet(ordered, idx)[0] == '-' || IsDigit(Bullet(ordered, idx)[0])
    ensures !IsSpace(Bullet(ordered, idx)[0])
  {
    if ordered {
      NatToStringDigits(idx);
      assert IsDigit(NatToString(idx)[0]);
    }
  }

  /** An unordered bullet is a dash and a space; an ordered one is the decimal
      text of its number, which reads back as that number, then a dot and a space. */
  lemma BulletReadsBack(ordered: bool, idx: nat)
    ensures !ordered ==> Bullet(ordered, idx) == "- "
    ensures ordered ==>
      var b := Bullet(ordered, idx);
      && |b| >= 3 && b[|b| - 2..] == ". "
      && AllDigits(b[..|b| - 2]) && DigitsValue(b[..|b| - 2]) == idx
  {
    if ordered {
      NatToStringDigits(idx);
      DecimalRoundTrip(idx);
      var b := Bullet(ordered, idx);
      assert b[..|b| - 2] == NatToString(idx);
    }
  }

  /** `block_to_markdown(node, indent_level)`: the non-empty lines, joined by newlines. */
  function Render(n: Node, indent: nat): string
    requires n.Element?
    decreases n, 1
  {
    JoinLines(Lines(n, indent))
  }

  /** The `lines` list `block_to_markdown` collects, before empty entries are dropped. */
  function Lines(n: Node, indent: nat): seq<string>
    requires n.Element?
    decreases n, 0
  {
    var tag := n.tag;
    if tag in HeadingTags then [HeadingLine(n)]
    else if tag == "p" then ParagraphLines(n)
    else if tag == "ul" || tag == "ol" then ItemLines(n.children, tag == "ol", indent, 1) + [""]
    else if tag == "table" then TableLines(TableData(n))
    else if tag == "pre" then PreLines(n)
    else ContainerLines(n.children, indent)
  }

  function HeadingLine(n: Node): string
    requires n.Element? && n.tag in HeadingTags
  {
    RepeatChar('#', HeadingLevel(n.tag)) + " " + Strip(Inline.Render(n)) + "\n"
  }

  function ParagraphLines(n: Node): seq<string> {
    var text := Strip(Inline.Render(n));
    if text != "" then [text + "\n"] else []
  }

  /** One line per `li` child, numbered from `idx` on; other children are skipped. */
  function ItemLines(cs: seq<Node>, ordered: bool, indent: nat, idx: nat): seq<string>
    decreases cs
  {
    if |cs| == 0 then []
    else if cs[0].Element? && cs[0].tag == "li" then
      [ItemLine(ItemContent(cs[0], indent), ordered, indent, idx)] + ItemLines(cs[1..], ordered, indent, idx + 1)
    else ItemLines(cs[1..], ordered, indent, idx)
  }

  /** `''.join(content_parts)` of one list item. */
  function ItemContent(li: Node, indent: nat): string
    requires li.Element?
    decreases li
  {
    Concat(ItemParts(li.children, indent))
  }

  /** `indent + bullet + content.strip()`. */
  function ItemLine(content: string, ordered: bool, indent: nat, idx: nat): string {
    Indent(indent) + Bullet(ordered, idx) + Strip(content)
  }

  /** An item line opens with the depth's indentation and the bullet, carries
      the content with no whitespace at either end, and never ends in a newline. */
  lemma ItemLineShape(content: string, ordered: bool, indent: nat, idx: nat)
    ensures
      var r := ItemLine(content, ordered, indent, idx);
      var prefix := Indent(indent) + Bullet(ordered, idx);
      && StartsWith(r, prefix)
      && r[|prefix|..] == Strip(content)
      && r[|r| - 1] != '\n'
  {
    BulletShape(ordered, idx);
    var prefix := Indent(indent) + Bullet(ordered, idx);
    var text := Strip(content);
    var r := prefix + text;
    assert r[..|prefix|] == prefix && r[|prefix|..] == text;
    assert r[|r| - 1] == if text == "" then prefix[|prefix| - 1] else text[|text| - 1];
  }

  /** The `content_parts` of a list item, one child after the other. */
  function ItemParts(cs: seq<Node>, indent: nat): seq<string>
    decreases cs
  {
    if |cs| == 0 then [] else ItemPart(cs[0], indent) + ItemParts(cs[1..], indent)
  }

  /** What one child of a list item contributes: text as it is, a nested list on
      the following lines one level deeper (nothing when it is empty), anything
      else rendered inline. */
  function ItemPart(c: Node, indent: nat): seq<string>
    decreases c, 2
  {
    match c
    case Text(s) => [s]
    case Element(tag, _, _) =>
      if tag == "ul" || tag == "ol" then
        var nested := Render(c, indent + 1);
        if nested != "" then ["\n" + nested] else []
      else [Inline.Render(c)]
  }

  /** `[inline_to_markdown(c).strip() for c in cells]`. */
  function CellTexts(cells: seq<Node>): (r: seq<string>)
    ensures |r| == |cells|
    ensures forall i :: 0 <= i < |r| ==> r[i] == Strip(Inline.Render(cells[i]))
    ensures forall x :: x in r ==> Trimmed(x)
  {
    StripEach(Inline.RenderEach(cells))
  }

  /** The cell texts of each row, every `th` and `td` below the row counted. */
  function RowsData(rows: seq<Node>): (r: seq<seq<string>>)
    ensures |r| == |rows|
    ensures forall i :: 0 <= i < |r| ==> r[i] == CellTexts(FindAll(CellQuery, Children(rows[i])))
  {
    if |rows| == 0 then []
    else [CellTexts(FindAll(CellQuery, Children(rows[0])))] + RowsData(rows[1..])
  }

  /** `table_data`: one entry per `tr` anywhere below the table. */
  function TableData(n: Node): seq<seq<string>> {
    RowsData(FindAll(RowQuery, Children(n)))
  }

  function RowLine(cells: seq<string>): string {
    Join(cells, " | ")
  }

  function Dashes(k: nat): (r: seq<string>)
    ensures |r| == k && forall i :: 0 <= i < k ==> r[i] == "---"
  {
    if k == 0 then [] else Dashes(k - 1) + ["---"]
  }

  /** The separator row under the header: one `---` per header cell. */
  function Separator(k: nat): string {
    RowLine(Dashes(k))
  }

  function RowLines(data: seq<seq<string>>): (r: seq<string>)
    ensures |r| == |data|
    ensures forall i :: 0 <= i < |data| ==> r[i] == RowLine(data[i])
  {
    if |data| == 0 then [] else [RowLine(data[0])] + RowLines(data[1..])
  }

  /** Header, separator, the remaining rows and an end marker; nothing for no rows. */
  function TableLines(data: seq<seq<string>>): seq<string> {
    if |data| == 0 then []
    else [RowLine(data[0]), Separator(|data[0]|)] + RowLines(data[1..]) + [""]
  }

  /** The code of a `pre`: its text runs joined by newlines, trailing whitespace removed. */
  function PreCode(n: Node): (code: string)
    ensures code == "" || !IsSpace(code[|code| - 1])
  {
    RStrip(GetText(Children(n), "\n"))
  }

  function PreLines(n: Node): seq<string> {
    var code := PreCode(n);
    if code != "" then ["```\n" + code + "\n```\n"] else []
  }

  /** A generic container: child elements as blocks at the same depth, non-blank
      text as an indented line of its own. */
  function ContainerLines(cs: seq<Node>, indent: nat): seq<string>
    decreases cs
  {
    if |cs| == 0 then []
    else
      var part :=
        match cs[0]
        case Element(_, _, _) => [Render(cs[0], indent)]
        case Text(s) =>
          var text := Strip(s);
          if text != "" then [Indent(indent) + text + "\n"] else [];
      part + ContainerLines(cs[1..], indent)
  }
}

=== FILE: block_props.dfy ===
/** What the block renderer promises for each kind of block. */
module BlockProps {
  import opened Strings
  import opened Tree
  import Inline
  import opened Block

  /** A single non-empty line renders as itself. */
  lemma JoinLinesSingle(line: string)
    requires line != ""
    ensures JoinLines([line]) == line
  {
    assert NonEmpty([line]) == [line] + NonEmpty([]);
  }

  /** A block renders as nothing exactly when every line it collects is empty. */
  lemma RenderEmptyIffNoLines(n: Node, indent: nat)
    requires n.Element?
    ensures Render(n, indent) == "" <==> forall i :: 0 <= i < |Lines(n, indent)| ==> Lines(n, indent)[i] == ""
  {
    assert Render(n, indent) == JoinLines(Lines(n, indent));
    JoinLinesEmpty(Lines(n, indent));
  }

  /** The nesting depth shows only in lists and in the text of containers:
      headings, paragraphs, tables and `pre` blocks render the same at every depth. */
  lemma DepthIrrelevant(n: Node, i: nat, j: nat)
    requires n.Element? && (n.tag in HeadingTags || n.tag in {"p", "table", "pre"})
    ensures Render(n, i) == Render(n, j)
  {
    assert Lines(n, i) == Lines(n, j);
  }

  /** A heading `hN` always renders, at any depth, as exactly N `#`, a space,
      its stripped inline text and a newline. */
  lemma HeadingShape(n: Node, indent: nat)
    requires n.Element? && n.tag in HeadingTags
    ensures
      var r := Render(n, indent);
      var level := HeadingLevel(n.tag);
      && |r| >= level + 2
      && r[..level] == RepeatChar('#', level)
      && r[level] == ' '
      && r[level + 1..|r| - 1] == Strip(Inline.Render(n))
      && r[|r| - 1] == '\n'
  {
    JoinLinesSingle(HeadingLine(n));
  }

  /** A paragraph renders as nothing exactly when its stripped inline text is
      empty, and otherwise as that text and a newline. */
  lemma ParagraphShape(n: Node, indent: nat)
    requires n.Element? && n.tag == "p"
    ensures Render(n, indent) == "" <==> Strip(Inline.Render(n)) == ""
    ensures Strip(Inline.Render(n)) != "" ==> Render(n, indent) == Strip(Inline.Render(n)) + "\n"
  {
    var text := Strip(Inline.Render(n));
    if text != "" {
      JoinLinesSingle(text + "\n");
    }
  }

  /** A paragraph without formatting tags is its stripped text and a newline. */
  lemma PlainParagraph(attrs: map<string, string>, cs: seq<Node>, indent: nat)
    requires Inline.Unformatted(DescendantsOf(cs))
    requires Strip(GetText(cs, "")) != ""
    ensures Render(Element("p", attrs, cs), indent) == Strip(GetText(cs, "")) + "\n"
  {
    var n := Element("p", attrs, cs);
    Inline.PlainTagRendersText("p", attrs, cs);
    ParagraphShape(n, indent);
  }

  /** The joined content parts of each selected `li`, in order. */
  function ItemContents(items: seq<Node>, indent: nat): (r: seq<string>)
    requires forall i :: 0 <= i < |items| ==> items[i].Element?
    ensures |r| == |items|
  {
    if |items| == 0 then [] else [ItemContent(items[0], indent)] + ItemContents(items[1..], indent)
  }

  /** `[indent + bullet(idx) + content.strip() for idx, content in enumerate(contents, start=idx)]`:
      the reference reading of the list loop once the `li` children are selected. */
  function NumberedLines(contents: seq<string>, ordered: bool, indent: nat, idx: nat): (r: seq<string>)
    ensures |r| == |contents|
  {
    seq(|contents|, i requires 0 <= i < |contents| => ItemLine(contents[i], ordered, indent, idx + i))
  }

  /** Line `i` of the numbering that starts one later, at the next content,
      is line `i + 1` of the whole numbering. */
  lemma NumberedLineShift(contents: seq<string>, ordered: bool, indent: nat, idx: nat, i: nat)
    requires 1 <= i < |contents|
    ensures NumberedLines(contents[1..], ordered, indent, idx + 1)[i - 1] == ItemLine(contents[i], ordered, indent, idx + i)
  {
    assert NumberedLines(contents[1..], ordered, indent, idx + 1)[i - 1]
        == ItemLine(contents[1..][i - 1], ordered, indent, idx + 1 + (i - 1));
  }

  /** The numbering from the next number on is the tail of the whole numbering. */
  lemma NumberedLinesTail(contents: seq<string>, ordered: bool, indent: nat, idx: nat)
    requires contents != []
    ensures NumberedLines(contents, ordered, indent, idx)[1..] == NumberedLines(contents[1..], ordered, indent, idx + 1)
  {
    var r := NumberedLines(contents, ordered, indent, idx);
    var rest := NumberedLines(contents[1..], ordered, indent, idx + 1);
    forall i | 1 <= i < |r| ensures r[i] == rest[i - 1] {
      NumberedLineShift(contents, ordered, indent, idx, i);
    }
    assert r[1..] == rest;
  }

  /** Numbering the first content and then the rest from the next number on. */
  lemma NumberedLinesCons(contents: seq<string>, ordered: bool, indent: nat, idx: nat)
    requires contents != []
    ensures NumberedLines(contents, ordered, indent, idx)
         == [ItemLine(contents[0], ordered, indent, idx)] + NumberedLines(contents[1..], ordered, indent, idx + 1)
  {
    var r := NumberedLines(contents, ordered, indent, idx);
    NumberedLinesTail(contents, ordered, indent, idx);
    assert r == [r[0]] + r[1..];
  }

  /** Skipping the non-`li` children while counting is the same as selecting the
      `li` children first and numbering them afterwards. */
  lemma {:induction false} ItemLinesFollowItems(cs: seq<Node>, ordered: bool, indent: nat, idx: nat)
    ensures forall i :: 0 <= i < |FindChildren(ItemQuery, cs)| ==> FindChildren(ItemQuery, cs)[i].Element?
    ensures ItemLines(cs, ordered, indent, idx) == NumberedLines(ItemContents(FindChildren(ItemQuery, cs), indent), ordered, indent, idx)
  {
    var items := FindChildren(ItemQuery, cs);
    assert forall i :: 0 <= i < |items| ==> items[i] in items;
    if |cs| > 0 {
      if cs[0].Element? && cs[0].tag == "li" {
        ItemLinesFollowItems(cs[1..], ordered, indent, idx + 1);
        assert items == [cs[0]] + FindChildren(ItemQuery, cs[1..]);
        assert items[1..] == FindChildren(ItemQuery, cs[1..]);
        var contents := ItemContents(items, indent);
        assert contents[1..] == ItemContents(items[1..], indent);
        NumberedLinesCons(contents, ordered, indent, idx);
      } else {
        ItemLinesFollowItems(cs[1..], ordered, indent, idx);
        assert items == FindChildren(ItemQuery, cs[1..]);
      }
    }
  }

  /** A list renders as one line per direct `li` child, in order, numbered from
      one, joined by newlines; the end-of-list marker leaves no trace. */
  lemma ListShape(n: Node, indent: nat)
    requires n.Element? && n.tag in {"ul", "ol"}
    ensures forall i :: 0 <= i < |FindChildren(ItemQuery, n.children)| ==> FindChildren(ItemQuery, n.children)[i].Element?
    ensures
      var lines := NumberedLines(ItemContents(FindChildren(ItemQuery, n.children), indent), n.tag == "ol", indent, 1);
      && (forall i :: 0 <= i < |lines| ==> lines[i] != "")
      && Render(n, indent) == Join(lines, "\n")
  {
    var lines := ItemLines(n.children, n.tag == "ol", indent, 1);
    ItemLinesFollowItems(n.children, n.tag == "ol", indent, 1);
    forall i | 0 <= i < |lines| ensures lines[i] != "" {
      NumberedLineEdgeFree(ItemContents(FindChildren(ItemQuery, n.children), indent), n.tag == "ol", indent, i);
    }
    assert Lines(n, indent) == lines + [""];
    JoinLinesSkipsEmpty(lines, []);
    assert lines + [""] + [] == lines + [""];
    assert lines + [] == lines;
    NonEmptyKeepsAll(lines);
  }

  /** Line `i` of a list (from zero) opens with the depth's indentation and bullet number `i + 1`. */
  lemma ListLinePrefix(n: Node, indent: nat, i: nat)
    requires n.Element? && n.tag in {"ul", "ol"}
    requires i < |FindChildren(ItemQuery, n.children)|
    ensures
      var lines := ItemLines(n.children, n.tag == "ol", indent, 1);
      && i < |lines|
      && StartsWith(lines[i], Indent(indent) + Bullet(n.tag == "ol", i + 1))
  {
    ItemLinesFollowItems(n.children, n.tag == "ol", indent, 1);
    NumberedLinePrefix(ItemContents(FindChildren(ItemQuery, n.children), indent), n.tag == "ol", indent, i);
  }

  lemma NumberedLinePrefix(contents: seq<string>, ordered: bool, indent: nat, i: nat)
    requires i < |contents|
    ensures StartsWith(NumberedLines(contents, ordered, indent, 1)[i], Indent(indent) + Bullet(ordered, i + 1))
  {
    assert NumberedLines(contents, ordered, indent, 1)[i] == ItemLine(contents[i], ordered, indent, 1 + i);
    ItemLineShape(contents[i], ordered, indent, 1 + i);
  }

  /** A list renders as nothing exactly when it has no `li` child. */
  lemma ListEmptyIffNoItems(n: Node, indent: nat)
    requires n.Element? && n.tag in {"ul", "ol"}
    ensures Render(n, indent) == "" <==> FindChildren(ItemQuery, n.children) == []
  {
    ListShape(n, indent);
    var lines := NumberedLines(ItemContents(FindChildren(ItemQuery, n.children), indent), n.tag == "ol", indent, 1);
    JoinNonEmptyParts(lines, "\n");
  }

  /** An item line neither begins nor ends with a newline. */
  lemma ItemLineEdges(content: string, ordered: bool, indent: nat, idx: nat)
    ensures EdgeFree(ItemLine(content, ordered, indent, idx))
  {
    BulletShape(ordered, idx);
    ItemLineShape(content, ordered, indent, idx);
    var prefix := Indent(indent) + Bullet(ordered, idx);
    var r := ItemLine(content, ordered, indent, idx);
    assert r[..|prefix|] == prefix;
    assert r[0] == prefix[0];
    if indent == 0 {
      assert prefix[0] == Bullet(ordered, idx)[0];
    } else {
      assert prefix[0] == Indent(indent)[0];
    }
  }

  lemma NumberedLineEdgeFree(contents: seq<string>, ordered: bool, indent: nat, i: nat)
    requires i < |contents|
    ensures EdgeFree(NumberedLines(contents, ordered, indent, 1)[i])
  {
    ItemLineEdges(contents[i], ordered, indent, 1 + i);
  }

  /** Numbered item lines, joined by newlines, neither begin nor end with a newline. */
  lemma NumberedLinesEdges(contents: seq<string>, ordered: bool, indent: nat)
    ensures NoNewlineAtEdges(Join(NumberedLines(contents, ordered, indent, 1), "\n"))
  {
    if |contents| > 0 {
      NumberedLineEdgeFree(contents, ordered, indent, 0);
      NumberedLineEdgeFree(contents, ordered, indent, |contents| - 1);
      JoinKeepsEdges(NumberedLines(contents, ordered, indent, 1), "\n");
    }
  }

  /** Numbered item lines, joined by newlines, open with the first line's
      indentation and bullet. */
  lemma NumberedLinesStart(contents: seq<string>, ordered: bool, indent: nat)
    requires contents != []
    ensures StartsWith(Join(NumberedLines(contents, ordered, indent, 1), "\n"), Indent(indent) + Bullet(ordered, 1))
  {
    var lines := NumberedLines(contents, ordered, indent, 1);
    JoinEnds(lines, "\n");
  }

  /** A list with items opens with the depth's indentation and the first bullet. */
  lemma ListOpensWithFirstBullet(n: Node, indent: nat)
    requires n.Element? && n.tag in {"ul", "ol"}
    requires FindChildren(ItemQuery, n.children) != []
    ensures StartsWith(Render(n, indent), Indent(indent) + Bullet(n.tag == "ol", 1))
  {
    ListShape(n, indent);
    NumberedLinesStart(ItemContents(FindChildren(ItemQuery, n.children), indent), n.tag == "ol", indent);
  }

  /** A rendered list neither begins nor ends with a newline: the end-of-list
      marker leaves no blank line behind. */
  lemma ListNoNewlineAtEdges(n: Node, indent: nat)
    requires n.Element? && n.tag in {"ul", "ol"}
    ensures NoNewlineAtEdges(Render(n, indent))
  {
    ListShape(n, indent);
    NumberedLinesEdges(ItemContents(FindChildren(ItemQuery, n.children), indent), n.tag == "ol", indent);
  }

  /** A list item made of a text and a nested list: the nested list, rendered
      one level deeper, follows the text after a newline, inside the same item. */
  lemma NestedListItem(attrs: map<string, string>, a: string, sub: Node, indent: nat)
    requires sub.Element? && sub.tag in {"ul", "ol"}
    requires Render(sub, indent + 1) != ""
    ensures ItemContent(Element("li", attrs, [Text(a), sub]), indent) == a + ("\n" + Render(sub, indent + 1))
  {
    TextThenListParts(a, sub, indent);
    ConcatPair(a, "\n" + Render(sub, indent + 1));
  }

  /** The content parts of a text followed by a non-empty nested list. */
  lemma TextThenListParts(a: string, sub: Node, indent: nat)
    requires sub.Element? && sub.tag in {"ul", "ol"}
    requires Render(sub, indent + 1) != ""
    ensures ItemParts([Text(a), sub], indent) == [a, "\n" + Render(sub, indent + 1)]
  {
    var cs := [Text(a), sub];
    assert cs[1..] == [sub];
    assert [sub][1..] == [];
    assert ItemParts([sub], indent) == ["\n" + Render(sub, indent + 1)] + ItemParts([], indent);
  }

  lemma {:induction false} ItemPartsAppend(a: seq<Node>, b: seq<Node>, indent: nat)
    ensures ItemParts(a + b, indent) == ItemParts(a, indent) + ItemParts(b, indent)
  {
    if |a| == 0 {
      assert a + b == b;
    } else {
      assert (a + b)[1..] == a[1..] + b;
      ItemPartsAppend(a[1..], b, indent);
    }
  }

  /** The part a nested list contributes: its rendering one level deeper after
      a newline, or nothing when it renders as nothing. */
  lemma NestedPart(sub: Node, indent: nat)
    requires sub.Element? && sub.tag in {"ul", "ol"}
    ensures ItemParts([sub], indent) ==
      if Render(sub, indent + 1) != "" then ["\n" + Render(sub, indent + 1)] else []
  {
    assert [sub][1..] == [];
  }

  /** A list directly inside an item, wherever it stands among the item's
      children, adds its rendering one level deeper after a newline, and
      nothing at all when it renders as nothing; the children before and after
      it contribute as they would on their own. */
  lemma NestedListAnywhere(pre: seq<Node>, sub: Node, post: seq<Node>, indent: nat)
    requires sub.Element? && sub.tag in {"ul", "ol"}
    ensures
      var nested := Render(sub, indent + 1);
      Concat(ItemParts(pre + [sub] + post, indent)) ==
        Concat(ItemParts(pre, indent)) + (if nested != "" then "\n" + nested else "") + Concat(ItemParts(post, indent))
  {
    var nested := Render(sub, indent + 1);
    ItemPartsAppend(pre + [sub], post, indent);
    ItemPartsAppend(pre, [sub], indent);
    NestedPart(sub, indent);
    var mid := ItemParts([sub], indent);
    ConcatAppend(ItemParts(pre, indent) + mid, ItemParts(post, indent));
    ConcatAppend(ItemParts(pre, indent), mid);
    if nested != "" {
      assert Concat(mid) == "\n" + nested;
    } else {
      assert Concat(mid) == "";
    }
  }

  /** An `li` nested inside another element of the item, rather than directly in
      the list, does not get a line of its own: only direct children are items. */
  lemma OnlyDirectItems(n: Node, indent: nat)
    requires n.Element? && n.tag in {"ul", "ol"}
    ensures |ItemLines(n.children, n.tag == "ol", indent, 1)| == |FindChildren(ItemQuery, n.children)|
    ensures FindChildren(ItemQuery, n.children) == [] ==> Render(n, indent) == ""
  {
    ItemLinesFollowItems(n.children, n.tag == "ol", indent, 1);
    ListEmptyIffNoItems(n, indent);
  }

  // ---------------------------------------------------------------- tables

  /** A table with no `tr` renders as nothing; otherwise as the header row, the
      separator with one `---` per header cell, and the other rows in document
      order, empty lines dropped. */
  lemma TableShape(n: Node, indent: nat)
    requires n.Element? && n.tag == "table"
    ensures
      var rows := FindAll(RowQuery, n.children);
      && (rows == [] ==> Render(n, indent) == "")
      && (rows != [] ==>
            var header := CellTexts(FindAll(CellQuery, Children(rows[0])));
            && |header| == |FindAll(CellQuery, Children(rows[0]))|
            && Render(n, indent) == JoinLines([RowLine(header), Separator(|header|)] + RowLines(RowsData(rows[1..]))))
  {
    var rows := FindAll(RowQuery, n.children);
    assert Lines(n, indent) == TableLines(TableData(n));
    assert TableData(n) == RowsData(rows);
    TableLinesJoined(RowsData(rows));
    if rows != [] {
      assert RowsData(rows)[1..] == RowsData(rows[1..]);
    }
  }

  /** The table's lines, joined: the end marker leaves no trace. */
  lemma TableLinesJoined(data: seq<seq<string>>)
    ensures data == [] ==> JoinLines(TableLines(data)) == ""
    ensures data != [] ==>
      JoinLines(TableLines(data)) == JoinLines([RowLine(data[0]), Separator(|data[0]|)] + RowLines(data[1..]))
  {
    if data != [] {
      var first := [RowLine(data[0]), Separator(|data[0]|)] + RowLines(data[1..]);
      JoinLinesSkipsEmpty(first, []);
      assert first + [""] + [] == first + [""];
      assert first + [] == first;
    }
  }

  /** The separator row: empty for no cells, otherwise exactly one `---` per cell
      and one `|` between neighbours. */
  lemma {:induction false} SeparatorCells(k: nat)
    ensures Separator(k) == "" <==> k == 0
    ensures k > 0 ==> Count(Separator(k), '-') == 3 * k && Count(Separator(k), '|') == k - 1
    ensures k > 0 ==> |Separator(k)| == 6 * k - 3
  {
    if k == 1 {
      assert Dashes(1) == ["---"];
      assert Separator(1) == "---";
      assert "---"[1..] == "--" && "--"[1..] == "-" && "-"[1..] == "";
    } else if k > 1 {
      SeparatorCells(k - 1);
      JoinAppend(Dashes(k - 1), ["---"], " | ");
      assert Dashes(k) == Dashes(k - 1) + ["---"];
      assert Separator(k) == Separator(k - 1) + " | " + "---";
      CountAppend(Separator(k - 1), " | ", '-');
      CountAppend(Separator(k - 1) + " | ", "---", '-');
      CountAppend(Separator(k - 1), " | ", '|');
      CountAppend(Separator(k - 1) + " | ", "---", '|');
      assert " | "[1..] == "| " && "| "[1..] == " " && " "[1..] == "";
      assert "---"[1..] == "--" && "--"[1..] == "-" && "-"[1..] == "";
    }
  }

  /** Two non-empty leading lines open the joined text, one newline apart. */
  lemma JoinLinesLeading(first: string, second: string, rest: seq<string>)
    requires first != "" && second != ""
    ensures StartsWith(JoinLines([first, second] + rest), first + "\n" + second)
  {
    var top := [first, second];
    NonEmptyAppend(top, rest);
    NonEmptyKeepsAll(top);
    assert top[1..] == [second];
    assert Join(top, "\n") == first + "\n" + second;
    if NonEmpty(rest) == [] {
      assert top + NonEmpty(rest) == top;
    } else {
      JoinAppend(top, NonEmpty(rest), "\n");
    }
  }

  /** When the header row is not empty, the rendered table opens with the header
      line and, right below it, the separator with as many cells. */
  lemma TableHeaderFirst(n: Node, indent: nat)
    requires n.Element? && n.tag == "table"
    requires FindAll(RowQuery, n.children) != []
    requires RowLine(CellTexts(FindAll(CellQuery, Children(FindAll(RowQuery, n.children)[0])))) != ""
    ensures
      var header := CellTexts(FindAll(CellQuery, Children(FindAll(RowQuery, n.children)[0])));
      StartsWith(Render(n, indent), RowLine(header) + "\n" + Separator(|header|))
  {
    var rows := FindAll(RowQuery, n.children);
    var header := CellTexts(FindAll(CellQuery, Children(rows[0])));
    TableShape(n, indent);
    SeparatorCells(|header|);
    JoinLinesLeading(RowLine(header), Separator(|header|), RowLines(RowsData(rows[1..])));
  }

  // ---------------------------------------------------------------- pre blocks

  /** A `pre` renders as nothing exactly when its text, joined by newlines, is
      whitespace only; otherwise as a fenced block around that text with its
      trailing whitespace removed. */
  lemma PreShape(n: Node, indent: nat)
    requires n.Element? && n.tag == "pre"
    ensures Render(n, indent) == "" <==> AllSpace(GetText(n.children, "\n"))
    ensures !AllSpace(GetText(n.children, "\n")) ==>
      Render(n, indent) == "```\n" + RStrip(GetText(n.children, "\n")) + "\n```\n"
  {
    assert Children(n) == n.children;
    RStripEmptyIffAllSpace(GetText(n.children, "\n"));
    var code := PreCode(n);
    if code != "" {
      JoinLinesSingle("```\n" + code + "\n```\n");
    }
  }

  // ---------------------------------------------------------------- containers

  lemma {:induction false} ContainerLinesAppend(a: seq<Node>, b: seq<Node>, indent: nat)
    ensures ContainerLines(a + b, indent) == ContainerLines(a, indent) + ContainerLines(b, indent)
  {
    if |a| == 0 {
      assert a + b == b;
    } else {
      assert (a + b)[1..] == a[1..] + b;
      ContainerLinesAppend(a[1..], b, indent);
    }
  }

  /** Text runs that are whitespace only. */
  predicate Blank(cs: seq<Node>) {
    forall i :: 0 <= i < |cs| ==> cs[i].Text? && AllSpace(cs[i].text)
  }

  lemma {:induction false} BlankAddsNoLines(cs: seq<Node>, indent: nat)
    requires Blank(cs)
    ensures ContainerLines(cs, indent) == []
  {
    if |cs| > 0 {
      StripEmptyIffAllSpace(cs[0].text);
      BlankAddsNoLines(cs[1..], indent);
    }
  }

  /** A tag the block renderer does not know is transparent: wrapped around one
      element, with only whitespace around it, it renders as that element does. */
  lemma WrapperTransparent(tag: string, attrs: map<string, string>, pre: seq<Node>, c: Node, post: seq<Node>, indent: nat)
    requires tag !in HeadingTags && tag !in {"p", "ul", "ol", "table", "pre"}
    requires c.Element? && Blank(pre) && Blank(post)
    ensures Render(Element(tag, attrs, pre + [c] + post), indent) == Render(c, indent)
  {
    var n := Element(tag, attrs, pre + [c] + post);
    ContainerLinesAppend(pre + [c], post, indent);
    ContainerLinesAppend(pre, [c], indent);
    BlankAddsNoLines(pre, indent);
    BlankAddsNoLines(post, indent);
    assert [c][1..] == [];
    assert ContainerLines([c], indent) == [Render(c, indent)];
    assert Lines(n, indent) == [Render(c, indent)];
    if Render(c, indent) != "" {
      JoinLinesSingle(Render(c, indent));
    } else {
      assert NonEmpty([""]) == [];
    }
  }

  /** A non-blank text directly inside a container becomes a line of its own:
      indented to the current depth, stripped, and ended with a newline. */
  lemma ContainerText(tag: string, attrs: map<string, string>, s: string, indent: nat)
    requires tag !in HeadingTags && tag !in {"p", "ul", "ol", "table", "pre"}
    requires !AllSpace(s)
    ensures Render(Element(tag, attrs, [Text(s)]), indent) == Indent(indent) + Strip(s) + "\n"
  {
    StripEmptyIffAllSpace(s);
    var line := Indent(indent) + Strip(s) + "\n";
    assert [Text(s)][1..] == [];
    assert ContainerLines([Text(s)], indent) == [line];
    JoinLinesSingle(line);
  }

  /** What follows the text of an item with a nested list: a newline, the
      deeper indentation and a bullet character, which is not whitespace. */
  lemma NestedHead(nested: string, nestedOrdered: bool, indent: nat)
    requires StartsWith(nested, Indent(indent + 1) + Bullet(nestedOrdered, 1))
    ensures !IsSpace(Bullet(nestedOrdered, 1)[0])
    ensures StartsWith("\n" + nested, "\n" + Indent(indent + 1) + [Bullet(nestedOrdered, 1)[0]])
  {
    var deeper := Indent(indent + 1);
    var c := Bullet(nestedOrdered, 1)[0];
    assert StartsWith(nested, deeper + [c]) by {
      assert nested[..|deeper| + 1] == (deeper + Bullet(nestedOrdered, 1))[..|deeper| + 1];
    }
    ConcatPrefix("\n", nested, deeper + [c]);
    assert "\n" + deeper + [c] == "\n" + (deeper + [c]);
  }

  /** Stripped behind a fixed prefix, a non-blank text, a newline and a
      rest opening with `deeper` and a non-space character keep all of that
      up to the non-space character, less the text's leading whitespace. */
  lemma PrefixedStripKeepsHead(prefix: string, a: string, rest: string, deeper: string, c: char)
    requires !AllSpace(a) && !IsSpace(c)
    requires StartsWith("\n" + rest, "\n" + deeper + [c])
    ensures StartsWith(prefix + Strip(a + ("\n" + rest)), prefix + (LStrip(a) + ("\n" + deeper)))
  {
    StripKeepsHead(a, "\n" + rest, "\n" + deeper, c);
    ConcatPrefix(prefix, Strip(a + ("\n" + rest)), LStrip(a) + ("\n" + deeper));
  }

  /** The item line of a non-blank text followed by a newline and a nested
      list's rendering that opens with its own indentation and bullet. */
  lemma ItemLineWithNested(a: string, nested: string, nestedOrdered: bool, ordered: bool, indent: nat, idx: nat)
    requires !AllSpace(a)
    requires StartsWith(nested, Indent(indent + 1) + Bullet(nestedOrdered, 1))
    ensures StartsWith(ItemLine(a + ("\n" + nested), ordered, indent, idx),
                       Indent(indent) + Bullet(ordered, idx) + (LStrip(a) + ("\n" + Indent(indent + 1))))
  {
    var prefix := Indent(indent) + Bullet(ordered, idx);
    var deeper := Indent(indent + 1);
    NestedHead(nested, nestedOrdered, indent);
    PrefixedStripKeepsHead(prefix, a, nested, deeper, Bullet(nestedOrdered, 1)[0]);
  }

  /** The line of an item made of a non-blank text and a nested list with items:
      bullet, the text without its leading whitespace, a newline, and the nested
      list's first line, indented one level deeper. */
  lemma NestedItemLine(attrs: map<string, string>, a: string, sub: Node, ordered: bool, indent: nat, idx: nat)
    requires sub.Element? && sub.tag in {"ul", "ol"}
    requires FindChildren(ItemQuery, sub.children) != []
    requires !AllSpace(a)
    ensures
      var li := Element("li", attrs, [Text(a), sub]);
      StartsWith(ItemLine(ItemContent(li, indent), ordered, indent, idx),
                 Indent(indent) + Bullet(ordered, idx) + (LStrip(a) + ("\n" + Indent(indent + 1))))
  {
    ListEmptyIffNoItems(sub, indent + 1);
    NestedListItem(attrs, a, sub, indent);
    ListOpensWithFirstBullet(sub, indent + 1);
    ItemLineWithNested(a, Render(sub, indent + 1), sub.tag == "ol", ordered, indent, idx);
  }
  /** An item line whose content is blank text, a newline and a nested list
      opening with its indentation and bullet: the `strip` removes the
      newline and the deeper indentation, so the nested list's first
      character follows the item's own bullet directly. */
  lemma BlankHeadItemLine(w: string, nested: string, nestedOrdered: bool, ordered: bool, indent: nat, idx: nat)
    requires AllSpace(w)
    requires StartsWith(nested, Indent(indent + 1) + Bullet(nestedOrdered, 1))
    ensures ItemLine(w + ("\n" + nested), ordered, indent, idx) == Indent(indent) + Bullet(ordered, idx) + Strip(nested)
    ensures |Strip(nested)| > 0 && Strip(nested)[0] == Bullet(nestedOrdered, 1)[0]
  {
    var deeper := Indent(indent + 1);
    var b := Bullet(nestedOrdered, 1);
    assert StartsWith(nested, deeper + [b[0]]) by {
      assert nested[..|deeper| + 1] == (deeper + b)[..|deeper| + 1];
    }
    StripOpensAfterBlank(nested, deeper, b[0]);
    assert w + ("\n" + nested) == (w + "\n") + nested;
    StripBlankHead(w + "\n", nested);
  }

  /** A list item whose own text is blank puts the nested list's first bullet
      right after its own: `<li><ul><li>B</li></ul></li>` gives `- - B`. */
  lemma BlankItemLine(w: string, sub: Node, ordered: bool, indent: nat, idx: nat)
    requires sub.Element? && sub.tag in {"ul", "ol"}
    requires FindChildren(ItemQuery, sub.children) != []
    requires AllSpace(w)
    ensures
      var nested := Render(sub, indent + 1);
      && ItemLine(w + ("\n" + nested), ordered, indent, idx) == Indent(indent) + Bullet(ordered, idx) + Strip(nested)
      && |Strip(nested)| > 0 && Strip(nested)[0] == Bullet(sub.tag == "ol", 1)[0]
  {
    ListOpensWithFirstBullet(sub, indent + 1);
    BlankHeadItemLine(w, Render(sub, indent + 1), sub.tag == "ol", ordered, indent, idx);
  }

  /** An item holding only a nested list puts that list's first bullet on
      its own bullet's line. */
  lemma OnlyNestedItemLine(attrs: map<string, string>, sub: Node, ordered: bool, indent: nat, idx: nat)
    requires sub.Element? && sub.tag in {"ul", "ol"}
    requires FindChildren(ItemQuery, sub.children) != []
    ensures
      var nested := Render(sub, indent + 1);
      && ItemLine(ItemContent(Element("li", attrs, [sub]), indent), ordered, indent, idx) == Indent(indent) + Bullet(ordered, idx) + Strip(nested)
      && |Strip(nested)| > 0 && Strip(nested)[0] == Bullet(sub.tag == "ol", 1)[0]
  {
    var nested := Render(sub, indent + 1);
    ListEmptyIffNoItems(sub, indent + 1);
    NestedPart(sub, indent);
    assert ItemContent(Element("li", attrs, [sub]), indent) == "" + ("\n" + nested);
    BlankItemLine("", sub, ordered, indent, idx);
  }

  /** An item whose text before a nested list is blank behaves the same way. */
  lemma BlankTextNestedItemLine(attrs: map<string, string>, a: string, sub: Node, ordered: bool, indent: nat, idx: nat)
    requires sub.Element? && sub.tag in {"ul", "ol"}
    requires FindChildren(ItemQuery, sub.children) != []
    requires AllSpace(a)
    ensures
      var nested := Render(sub, indent + 1);
      && ItemLine(ItemContent(Element("li", attrs, [Text(a), sub]), indent), ordered, indent, idx) == Indent(indent) + Bullet(ordered, idx) + Strip(nested)
      && |Strip(nested)| > 0 && Strip(nested)[0] == Bullet(sub.tag == "ol", 1)[0]
  {
    ListEmptyIffNoItems(sub, indent + 1);
    NestedListItem(attrs, a, sub, indent);
    BlankItemLine(a, sub, ordered, indent, idx);
  }

  /** The only child of a list, when it is an `li`, is the list's one item. */
  lemma OneItemFound(li: Node)
    requires li.Element? && li.tag == "li"
    ensures FindChildren(ItemQuery, [li]) == [li]
  {
    assert [li][1..] == [];
  }

  /** A list with one `li` child renders as that item's line, numbered 1. */
  lemma SingleItemList(tag: string, attrs: map<string, string>, li: Node, indent: nat)
    requires tag in {"ul", "ol"}
    requires li.Element? && li.tag == "li"
    ensures Render(Element(tag, attrs, [li]), indent) == ItemLine(ItemContent(li, indent), tag == "ol", indent, 1)
  {
    var n := Element(tag, attrs, [li]);
    OneItemFound(li);
    ListShape(n, indent);
    assert ItemContents([li], indent) == [ItemContent(li, indent)];
    var line := ItemLine(ItemContent(li, indent), tag == "ol", indent, 1);
    assert NumberedLines([ItemContent(li, indent)], tag == "ol", indent, 1) == [line];
    assert Join([line], "\n") == line;
  }

  /** An item holding one text run has that run as its content. */
  lemma TextItemContent(attrs: map<string, string>, s: string, indent: nat)
    ensures ItemContent(Element("li", attrs, [Text(s)]), indent) == s
  {
    assert [Text(s)][1..] == [];
    assert ItemParts([Text(s)], indent) == [s];
    assert Concat([s]) == s;
  }

  /** A bullet list holding one item of plain text is that text, stripped, after the bullet. */
  lemma SingleTextList(attrs: map<string, string>, liAttrs: map<string, string>, t: string, indent: nat)
    ensures Render(Element("ul", attrs, [Element("li", liAttrs, [Text(t)])]), indent) == Indent(indent) + "- " + Strip(t)
  {
    TextItemContent(liAttrs, t, indent);
    SingleItemList("ul", attrs, Element("li", liAttrs, [Text(t)]), indent);
  }

  /** A bullet list whose one item holds only a non-empty list is the nested
      list's rendering, stripped, after the bullet. */
  lemma OnlyNestedList(attrs: map<string, string>, liAttrs: map<string, string>, sub: Node, indent: nat)
    requires sub.Element? && sub.tag in {"ul", "ol"}
    requires FindChildren(ItemQuery, sub.children) != []
    ensures Render(Element("ul", attrs, [Element("li", liAttrs, [sub])]), indent) == Indent(indent) + "- " + Strip(Render(sub, indent + 1))
  {
    OnlyNestedItemLine(liAttrs, sub, false, indent, 1);
    SingleItemList("ul", attrs, Element("li", liAttrs, [sub]), indent);
  }
}

=== FILE: inline.dfy ===
/** The inline renderer of `inline_to_markdown`: one node and everything below
    it as a Markdown text fragment. */
module Inline {
  import opened Strings
  import opened Tree

  /** The tags the inline renderer treats specially; every other tag is transparent. */
  const InlineTags: set<string> := {"strong", "b", "em", "i", "code", "a", "br"}

  /** `node.get("href", "")`. */
  function HrefOf(attrs: map<string, string>): string {
    if "href" in attrs then attrs["href"] else ""
  }

  /** A link from its raw `href` value and the rendering of its children: an
      empty label falls back to the target, and then to the word `link`; without
      a target only the label is kept. */
  function Link(rawHref: string, rawText: string): (r: string)
    ensures r != ""
    ensures Strip(rawHref) == "" ==> Trimmed(r) && r == (if Strip(rawText) != "" then Strip(rawText) else "link")
    ensures Strip(rawHref) != "" ==> r[0] == '[' && EndsWith(r, "](" + Strip(rawHref) + ")")
  {
    var href := Strip(rawHref);
    var text := Strip(rawText);
    var caption := if text != "" then text else if href != "" then href else "link";
    if href != "" then
      var tail := "](" + href + ")";
      var r := "[" + caption + tail;
      assert r[|r| - |tail|..] == tail;
      r
    else
      assert !IsSpace('l') && !IsSpace('k');
      caption
  }

  /** `inline_to_markdown(node)`. Text is copied verbatim, with no escaping. */
  function Render(n: Node): string
    decreases n
  {
    match n
    case Text(s) => s
    case Element(tag, attrs, cs) =>
      if tag == "strong" || tag == "b" then "**" + RenderAll(cs) + "**"
      else if tag == "em" || tag == "i" then "*" + RenderAll(cs) + "*"
      else if tag == "code" then "`" + GetTextStripped(cs) + "`"
      else if tag == "a" then Link(HrefOf(attrs), RenderAll(cs))
      else if tag == "br" then "\n"
      else RenderAll(cs)
  }

  /** `''.join(inline_to_markdown(c) for c in ns)`. */
  function RenderAll(ns: seq<Node>): string
    decreases ns
  {
    if |ns| == 0 then "" else Render(ns[0]) + RenderAll(ns[1..])
  }

  /** `[inline_to_markdown(c) for c in ns]`. */
  function RenderEach(ns: seq<Node>): (r: seq<string>)
    ensures |r| == |ns|
    ensures forall i :: 0 <= i < |r| ==> r[i] == Render(ns[i])
  {
    if |ns| == 0 then [] else [Render(ns[0])] + RenderEach(ns[1..])
  }

  lemma {:induction false} RenderAllAppend(a: seq<Node>, b: seq<Node>)
    ensures RenderAll(a + b) == RenderAll(a) + RenderAll(b)
  {
    if |a| == 0 {
      assert a + b == b;
    } else {
      assert (a + b)[1..] == a[1..] + b;
      RenderAllAppend(a[1..], b);
    }
  }

  /** Joining the renderings of a generator, as `''.join(...)` does, gives the
      same text as joining the list of renderings. */
  lemma {:induction false} RenderAllIsConcatOfEach(ns: seq<Node>)
    ensures RenderAll(ns) == Concat(RenderEach(ns))
  {
    if |ns| > 0 {
      RenderAllIsConcatOfEach(ns[1..]);
      var rest := RenderEach(ns[1..]);
      assert RenderEach(ns) == [Render(ns[0])] + rest;
      ConcatAppend([Render(ns[0])], rest);
      assert Concat([Render(ns[0])]) == Render(ns[0]);
    }
  }

  /** A tag without inline formatting adds nothing of its own: it renders as
      the renderings of its children, concatenated. */
  lemma TransparentTag(tag: string, attrs: map<string, string>, cs: seq<Node>)
    requires tag !in InlineTags
    ensures Render(Element(tag, attrs, cs)) == Concat(RenderEach(cs))
  {
    RenderAllIsConcatOfEach(cs);
  }

  /** No element among the given nodes is one the inline renderer treats specially. */
  predicate Unformatted(ds: seq<Node>) {
    forall d :: d in ds && d.Element? ==> d.tag !in InlineTags
  }

  /** Without formatting tags the inline rendering is exactly the text of the
      tree, `get_text()`: nothing is escaped, added or dropped. */
  lemma {:induction false} UnformattedRendersText(ns: seq<Node>)
    requires Unformatted(DescendantsOf(ns))
    ensures RenderAll(ns) == GetText(ns, "")
    decreases ns
  {
    if |ns| > 0 {
      var d := DescendantsOf(ns);
      assert d == [ns[0]] + Descendants(ns[0]) + DescendantsOf(ns[1..]);
      UnformattedNodeRendersText(ns[0]);
      UnformattedRendersText(ns[1..]);
      TextsOfAppend([ns[0]] + Descendants(ns[0]), DescendantsOf(ns[1..]));
      ConcatAppend(TextsOf([ns[0]] + Descendants(ns[0])), TextsOf(DescendantsOf(ns[1..])));
    }
  }

  lemma {:induction false} UnformattedNodeRendersText(n: Node)
    requires Unformatted([n] + Descendants(n))
    ensures Render(n) == Concat(TextsOf([n] + Descendants(n)))
    decreases n
  {
    TextsOfAppend([n], Descendants(n));
    match n
    case Text(s) =>
      assert TextsOf([n]) == [s];
      assert Descendants(n) == [];
      assert TextsOf([n] + Descendants(n)) == [s];
    case Element(_, _, cs) =>
      assert TextsOf([n]) == [];
      assert [n] + Descendants(n) == [n] + DescendantsOf(cs);
      UnformattedRendersText(cs);
  }

  /** An element that is not an inline tag, over an unformatted tree, renders
      as the text of that tree. */
  lemma PlainTagRendersText(tag: string, attrs: map<string, string>, cs: seq<Node>)
    requires tag !in InlineTags
    requires Unformatted(DescendantsOf(cs))
    ensures Render(Element(tag, attrs, cs)) == GetText(cs, "")
  {
    UnformattedRendersText(cs);
  }

  /** Bold and italic wrap the text of an unformatted tree in their markers. */
  lemma EmphasisWrapsText(tag: string, attrs: map<string, string>, cs: seq<Node>)
    requires tag in {"strong", "b", "em", "i"}
    requires Unformatted(DescendantsOf(cs))
    ensures
      var marker := if tag in {"strong", "b"} then "**" else "*";
      Render(Element(tag, attrs, cs)) == marker + GetText(cs, "") + marker
  {
    UnformattedRendersText(cs);
  }

  /** A code span is the stripped text between backticks: no markup inside is
      rendered, and the span is empty exactly when the code holds only whitespace. */
  lemma CodeSpanShape(attrs: map<string, string>, cs: seq<Node>)
    ensures
      var r := Render(Element("code", attrs, cs));
      && |r| >= 2 && r[0] == '`' && r[|r| - 1] == '`'
      && r[1..|r| - 1] == GetTextStripped(cs)
      && Trimmed(r[1..|r| - 1])
      && (|r| == 2 <==> forall i :: 0 <= i < |TextRuns(cs)| ==> AllSpace(TextRuns(cs)[i]))
  {
    var r := Render(Element("code", attrs, cs));
    assert r[1..|r| - 1] == GetTextStripped(cs);
  }

  /** A code span over a text run followed by an element holding one text run,
      as in `<code>a <b>b</b></code>`: both runs are stripped on their own and
      glued with nothing between them, so the space between them is lost. */
  lemma CodeSpanDropsSpaceBetweenRuns(attrs: map<string, string>, a: string, tag: string, inner: map<string, string>, b: string)
    ensures Render(Element("code", attrs, [Text(a), Element(tag, inner, [Text(b)])])) == "`" + (Strip(a) + Strip(b)) + "`"
  {
    var cs := [Text(a), Element(tag, inner, [Text(b)])];
    CodeSpanText(attrs, cs);
    TwoRunsStripped(a, tag, inner, b);
  }

  lemma CodeSpanText(attrs: map<string, string>, cs: seq<Node>)
    ensures Render(Element("code", attrs, cs)) == "`" + GetTextStripped(cs) + "`"
  {
  }

  /** A link never renders as the empty string, whatever its text and target. */
  lemma LinkNeverEmpty(attrs: map<string, string>, cs: seq<Node>)
    ensures Render(Element("a", attrs, cs)) != ""
  {
  }

  /** The spelled-out fallbacks of a link with the label `[text](href)`. */
  lemma LinkFallbacks(rawHref: string, rawText: string)
    ensures
      var href := Strip(rawHref);
      var text := Strip(rawText);
      && (href != "" && text != "" ==> Link(rawHref, rawText) == "[" + text + "](" + href + ")")
      && (href != "" && text == "" ==> Link(rawHref, rawText) == "[" + href + "](" + href + ")")
      && (href == "" && text != "" ==> Link(rawHref, rawText) == text)
      && (href == "" && text == "" ==> Link(rawHref, rawText) == "link")
  {
    var href := Strip(rawHref);
    var text := Strip(rawText);
    var r := Link(rawHref, rawText);
    if href != "" {
      assert r == "[" + (if text != "" then text else href) + ("](" + href + ")");
    } else {
      assert r == if text != "" then text else "link";
    }
  }
}

=== FILE: locator.dfy ===
/** The content locator of `extract_main_content`: which subtree of the page is
    the main content. */
module Locator {
  import opened Wrappers
  import opened Tree

  /** The `ValueError` raised when no candidate container exists. */
  datatype LocateError = NoContentContainer

  const ArticleQuery: Query := Named(["article"])
  const MainQuery: Query := Named(["main"])
  /** `find("div", id="content")`: only a `div` qualifies, not any tag with that id. */
  const ContentDivQuery: Query := NamedWithAttr("div", "id", "content")
  /** `soup.body` is the first `body` element in document order. */
  const BodyQuery: Query := Named(["body"])

  /** The four candidates, in priority order, as looked up in the document whose
      top-level nodes are `doc`. */
  function Candidates(doc: seq<Node>): seq<Option<Node>> {
    [Find(ArticleQuery, doc), Find(MainQuery, doc), Find(ContentDivQuery, doc), Find(BodyQuery, doc)]
  }

  /** The first candidate that was found. A found element is always truthy,
      whatever its contents, so "found" is the only test. */
  function FirstFound(cands: seq<Option<Node>>): (r: Option<Node>)
    ensures r.Some? <==> exists i :: 0 <= i < |cands| && cands[i].Some?
    ensures r.Some? ==> exists i :: 0 <= i < |cands| && cands[i] == r && forall j :: 0 <= j < i ==> cands[j].None?
  {
    if |cands| == 0 then None
    else if cands[0].Some? then cands[0]
    else FirstFound(cands[1..])
  }

  lemma FirstFoundOfFour(a: Option<Node>, b: Option<Node>, c: Option<Node>, d: Option<Node>)
    ensures FirstFound([a, b, c, d]) ==
      if a.Some? then a else if b.Some? then b else if c.Some? then c else d
  {
    assert [a, b, c, d][1..] == [b, c, d];
    assert [b, c, d][1..] == [c, d];
    assert [c, d][1..] == [d];
    assert [d][1..] == [];
    assert FirstFound([d]) == d;
    assert FirstFound([c, d]) == if c.Some? then c else FirstFound([d]);
    assert FirstFound([b, c, d]) == if b.Some? then b else FirstFound([c, d]);
    assert FirstFound([a, b, c, d]) == if a.Some? then a else FirstFound([b, c, d]);
  }

  /** What `find` returns is a match inside the searched forest. */
  lemma FoundIsMatch(q: Query, doc: seq<Node>)
    ensures Find(q, doc).Some? ==> Matches(q, Find(q, doc).value) && Find(q, doc).value in DescendantsOf(doc)
  {
    FindIsFirstOfFindAll(q, doc);
  }

  /** `extract_main_content` on a parsed document: the container element, or
      the failure when the page has none of the four candidates. */
  function Locate(doc: seq<Node>): (r: Result<Node, LocateError>)
    ensures r.Success? ==> r.value.Element? && r.value in DescendantsOf(doc)
    ensures r.Success? ==> r.value.tag in {"article", "main", "div", "body"}
  {
    var cands := Candidates(doc);
    FoundIsMatch(ArticleQuery, doc);
    FoundIsMatch(MainQuery, doc);
    FoundIsMatch(ContentDivQuery, doc);
    FoundIsMatch(BodyQuery, doc);
    FirstFoundOfFour(cands[0], cands[1], cands[2], cands[3]);
    match FirstFound(cands)
    case Some(c) => Success(c)
    case None => Failure(NoContentContainer)
  }

  /** Strict first-match-wins: the first `article` in document order; failing
      that the first `main`; failing that the first `div` with id `content`;
      failing that the first `body`; and a failure only when none exists. */
  lemma LocatePriority(doc: seq<Node>)
    ensures
      var articles := FindAll(ArticleQuery, doc);
      var mains := FindAll(MainQuery, doc);
      var divs := FindAll(ContentDivQuery, doc);
      var bodies := FindAll(BodyQuery, doc);
      Locate(doc) ==
        if |articles| > 0 then Success(articles[0])
        else if |mains| > 0 then Success(mains[0])
        else if |divs| > 0 then Success(divs[0])
        else if |bodies| > 0 then Success(bodies[0])
        else Failure(NoContentContainer)
  {
    FindIsFirstOfFindAll(ArticleQuery, doc);
    FindIsFirstOfFindAll(MainQuery, doc);
    FindIsFirstOfFindAll(ContentDivQuery, doc);
    FindIsFirstOfFindAll(BodyQuery, doc);
    var cands := Candidates(doc);
    FirstFoundOfFour(cands[0], cands[1], cands[2], cands[3]);
  }
}

=== FILE: strings.dfy ===
/** The Python string operations the converter relies on: `strip`, `rstrip`,
    `sep.join`, `filter(None, ...)`, `s * n` and `str(n)` for a natural number. */
module Strings {

  /** Python's `str.isspace` for a single character: exactly the characters
      that `str.strip()` and `str.rstrip()` remove when called without arguments. */
  predicate IsSpace(c: char) {
    || ('\U{9}' <= c <= '\U{D}')
    || ('\U{1C}' <= c <= '\U{1F}')
    || c == ' '
    || c == '\U{85}'
    || c == '\U{A0}'
    || c == '\U{1680}'
    || ('\U{2000}' <= c <= '\U{200A}')
    || c == '\U{2028}'
    || c == '\U{2029}'
    || c == '\U{202F}'
    || c == '\U{205F}'
    || c == '\U{3000}'
  }

  predicate AllSpace(s: string) {
    forall i :: 0 <= i < |s| ==> IsSpace(s[i])
  }

  predicate StartsWith(s: string, prefix: string) {
    |prefix| <= |s| && s[..|prefix|] == prefix
  }

  predicate EndsWith(s: string, suffix: string) {
    |suffix| <= |s| && s[|s| - |suffix|..] == suffix
  }

  /** `s` neither begins nor ends with whitespace. */
  predicate Trimmed(s: string) {
    s == [] || (!IsSpace(s[0]) && !IsSpace(s[|s| - 1]))
  }

  /** Every character of `s` from `lo` up to (not including) `hi` is whitespace. */
  predicate SpaceBetween(s: string, lo: nat, hi: nat)
    requires lo <= hi <= |s|
  {
    forall m :: lo <= m < hi ==> IsSpace(s[m])
  }

  /** The index of the first non-whitespace character at or after `i`, or `|s|`. */
  function SkipSpaces(s: string, i: nat): (k: nat)
    requires i <= |s|
    ensures i <= k <= |s| && SpaceBetween(s, i, k)
    ensures k < |s| ==> !IsSpace(s[k])
    decreases |s| - i
  {
    if i < |s| && IsSpace(s[i]) then SkipSpaces(s, i + 1) else i
  }

  /** The index just past the last non-whitespace character before `j`, or 0. */
  function BackSpaces(s: string, j: nat): (k: nat)
    requires j <= |s|
    ensures k <= j && SpaceBetween(s, k, j)
    ensures k > 0 ==> !IsSpace(s[k - 1])
  {
    if j > 0 && IsSpace(s[j - 1]) then BackSpaces(s, j - 1) else j
  }

  /** `s.lstrip()`: the suffix left after dropping the leading whitespace. */
  function LStrip(s: string): (r: string)
    ensures r == [] || !IsSpace(r[0])
    ensures |r| <= |s| && r == s[|s| - |r|..] && SpaceBetween(s, 0, |s| - |r|)
  {
    s[SkipSpaces(s, 0)..]
  }

  /** `s.rstrip()`: the prefix left after dropping the trailing whitespace. */
  function RStrip(s: string): (r: string)
    ensures r == [] || !IsSpace(r[|r| - 1])
    ensures |r| <= |s| && r == s[..|r|] && SpaceBetween(s, |r|, |s|)
  {
    s[..BackSpaces(s, |s|)]
  }

  /** `s.strip()`: the part between the leading and the trailing whitespace. */
  function Strip(s: string): (r: string)
    ensures Trimmed(r)
  {
    var i := SkipSpaces(s, 0);
    if i == |s| then "" else s[i..BackSpaces(s, |s|)]
  }

  /** `r` is what is left of `s` once its leading and trailing whitespace are cut off. */
  ghost predicate IsStripOf(r: string, s: string) {
    exists i, j :: 0 <= i <= j <= |s| && r == s[i..j] && SpaceBetween(s, 0, i) && SpaceBetween(s, j, |s|) && Trimmed(r)
  }

  /** `Strip` cuts only whitespace, and only at the two ends. */
  lemma StripIsStripOf(s: string)
    ensures IsStripOf(Strip(s), s)
  {
    var i := SkipSpaces(s, 0);
    if i == |s| {
      assert Strip(s) == s[|s|..|s|];
    } else {
      var j := BackSpaces(s, |s|);
      assert Strip(s) == s[i..j];
    }
  }

  /** A scan from `i` that meets only whitespace until a non-space character at `k` stops there. */
  lemma SkipSpacesStops(s: string, i: nat, k: nat)
    requires i <= k <= |s| && SpaceBetween(s, i, k)
    requires k < |s| ==> !IsSpace(s[k])
    ensures SkipSpaces(s, i) == k
  {
  }

  /** A backward scan from `j` that meets only whitespace until a non-space character before `k` stops there. */
  lemma BackSpacesStops(s: string, j: nat, k: nat)
    requires k <= j <= |s| && SpaceBetween(s, k, j)
    requires k > 0 ==> !IsSpace(s[k - 1])
    ensures BackSpaces(s, j) == k
  {
  }

  /** Only whitespace strips to the empty string. */
  lemma StripEmptyIffAllSpace(s: string)
    ensures Strip(s) == "" <==> AllSpace(s)
  {
    var i := SkipSpaces(s, 0);
    if i < |s| {
      assert !IsSpace(s[i]);
    }
  }

  /** The characterisation of `IsStripOf` pins the result down: `Strip` is the only such string. */
  lemma StripUnique(r: string, s: string)
    requires IsStripOf(r, s)
    ensures r == Strip(s)
  {
    var i, j :| 0 <= i <= j <= |s| && r == s[i..j] && SpaceBetween(s, 0, i) && SpaceBetween(s, j, |s|) && Trimmed(r);
    StripBetween(s, i, j);
  }

  /** A trimmed slice with only whitespace around it is the strip. */
  lemma StripBetween(s: string, i: nat, j: nat)
    requires i <= j <= |s| && SpaceBetween(s, 0, i) && SpaceBetween(s, j, |s|) && Trimmed(s[i..j])
    ensures s[i..j] == Strip(s)
  {
    if i == j {
      assert SpaceBetween(s, 0, |s|) by {
        forall m | 0 <= m < |s| ensures IsSpace(s[m]) {
          if m < i { } else { assert j <= m; }
        }
      }
      SkipSpacesStops(s, 0, |s|);
    } else {
      assert s[i] == s[i..j][0] && s[j - 1] == s[i..j][j - i - 1];
      SkipSpacesStops(s, 0, i);
      BackSpacesStops(s, |s|, j);
    }
  }

  /** Stripping both ends at once agrees with `lstrip` followed by `rstrip`. */
  lemma StripIsRStripOfLStrip(s: string)
    ensures Strip(s) == RStrip(LStrip(s))
  {
    var l := LStrip(s);
    var r := RStrip(l);
    var i := |s| - |l|;
    var j := i + |r|;
    assert r == s[i..j];
    assert SpaceBetween(s, j, |s|) by {
      forall m | j <= m < |s| ensures IsSpace(s[m]) {
        assert s[m] == l[m - i];
      }
    }
    assert r != [] ==> r[0] == l[0];
    StripUnique(r, s);
  }


  /** `sep.join(parts)`. */
  function Join(parts: seq<string>, sep: string): string
  {
    if |parts| == 0 then ""
    else if |parts| == 1 then parts[0]
    else parts[0] + sep + Join(parts[1..], sep)
  }

  /** `''.join(parts)`. */
  function Concat(parts: seq<string>): string
  {
    Join(parts, "")
  }

  lemma {:induction false} JoinAppend(a: seq<string>, b: seq<string>, sep: string)
    requires |a| > 0 && |b| > 0
    ensures Join(a + b, sep) == Join(a, sep) + sep + Join(b, sep)
  {
    if |a| == 1 {
      assert (a + b)[1..] == b;
    } else {
      assert (a + b)[1..] == a[1..] + b;
      JoinAppend(a[1..], b, sep);
    }
  }

  lemma {:induction false} ConcatAppend(a: seq<string>, b: seq<string>)
    ensures Concat(a + b) == Concat(a) + Concat(b)
  {
    if |a| == 0 {
      assert a + b == b;
    } else if |b| == 0 {
      assert a + b == a;
    } else {
      JoinAppend(a, b, "");
    }
  }

  /** `list(filter(None, parts))`: the non-empty strings, in order. */
  function NonEmpty(parts: seq<string>): (r: seq<string>)
    ensures forall i :: 0 <= i < |r| ==> r[i] != ""
    ensures forall x :: x in r <==> x in parts && x != ""
    ensures r == [] <==> forall i :: 0 <= i < |parts| ==> parts[i] == ""
  {
    if |parts| == 0 then []
    else if parts[0] == "" then NonEmpty(parts[1..])
    else [parts[0]] + NonEmpty(parts[1..])
  }

  lemma {:induction false} NonEmptyAppend(a: seq<string>, b: seq<string>)
    ensures NonEmpty(a + b) == NonEmpty(a) + NonEmpty(b)
  {
    if |a| == 0 {
      assert a + b == b;
    } else {
      assert (a + b)[1..] == a[1..] + b;
      NonEmptyAppend(a[1..], b);
    }
  }

  /** The line-joining policy of the block renderer: `"\n".join(filter(None, lines))`. */
  function JoinLines(lines: seq<string>): string
  {
    Join(NonEmpty(lines), "\n")
  }

  lemma {:induction false} JoinNonEmptyParts(parts: seq<string>, sep: string)
    requires forall i :: 0 <= i < |parts| ==> parts[i] != ""
    ensures Join(parts, sep) == "" <==> parts == []
  {
    if |parts| > 1 {
      JoinNonEmptyParts(parts[1..], sep);
    }
  }

  /** An empty line never contributes anything, not even a separator; the
      joined text is empty exactly when every line is. */
  lemma JoinLinesEmpty(lines: seq<string>)
    ensures JoinLines(lines) == "" <==> forall i :: 0 <= i < |lines| ==> lines[i] == ""
  {
    JoinNonEmptyParts(NonEmpty(lines), "\n");
  }

  /** Joining two runs of lines: their joins are glued with one separator, unless one is empty. */
  lemma JoinLinesAppend(a: seq<string>, b: seq<string>)
    ensures JoinLines(a + b) ==
      if JoinLines(a) == "" then JoinLines(b)
      else if JoinLines(b) == "" then JoinLines(a)
      else JoinLines(a) + "\n" + JoinLines(b)
  {
    NonEmptyAppend(a, b);
    JoinNonEmptyParts(NonEmpty(a), "\n");
    JoinNonEmptyParts(NonEmpty(b), "\n");
    if NonEmpty(a) == [] {
      assert NonEmpty(a) + NonEmpty(b) == NonEmpty(b);
    } else if NonEmpty(b) == [] {
      assert NonEmpty(a) + NonEmpty(b) == NonEmpty(a);
    } else {
      JoinAppend(NonEmpty(a), NonEmpty(b), "\n");
    }
  }

  /** An empty line anywhere, in particular a trailing end-of-block marker, is dropped. */
  lemma JoinLinesSkipsEmpty(a: seq<string>, b: seq<string>)
    ensures JoinLines(a + [""] + b) == JoinLines(a + b)
  {
    NonEmptyAppend(a + [""], b);
    NonEmptyAppend(a, [""]);
    NonEmptyAppend(a, b);
    assert NonEmpty([""]) == [];
    assert NonEmpty(a) + [] == NonEmpty(a);
  }

  /** Filtering leaves a list with no empty entries as it is. */
  lemma {:induction false} NonEmptyKeepsAll(parts: seq<string>)
    requires forall i :: 0 <= i < |parts| ==> parts[i] != ""
    ensures NonEmpty(parts) == parts
  {
    if |parts| > 0 {
      NonEmptyKeepsAll(parts[1..]);
      assert parts == [parts[0]] + parts[1..];
    }
  }

  /** A join begins with its first part and ends with its last. */
  lemma {:induction false} JoinEnds(parts: seq<string>, sep: string)
    requires |parts| > 0
    ensures StartsWith(Join(parts, sep), parts[0])
    ensures EndsWith(Join(parts, sep), parts[|parts| - 1])
  {
    if |parts| > 1 {
      JoinEnds(parts[1..], sep);
      var j := Join(parts, sep);
      var rest := Join(parts[1..], sep);
      assert j == parts[0] + (sep + rest);
      assert j[..|parts[0]|] == parts[0];
      assert j == (parts[0] + sep) + rest;
      assert j[|j| - |rest|..] == rest;
    }
  }

  /** `s` neither begins nor ends with a newline. */
  predicate NoNewlineAtEdges(s: string) {
    s == [] || (s[0] != '\n' && s[|s| - 1] != '\n')
  }

  lemma ConcatPair(a: string, b: string)
    ensures Concat([a, b]) == a + b
  {
    assert [a, b][1..] == [b];
    assert Join([b], "") == b;
  }

  /** A non-empty string that neither begins nor ends with a newline. */
  predicate EdgeFree(s: string) {
    s != [] && s[0] != '\n' && s[|s| - 1] != '\n'
  }

  /** A join keeps the edges of its first and last parts. */
  lemma JoinKeepsEdges(parts: seq<string>, sep: string)
    requires |parts| > 0 && EdgeFree(parts[0]) && EdgeFree(parts[|parts| - 1])
    ensures NoNewlineAtEdges(Join(parts, sep))
  {
    JoinEnds(parts, sep);
    var j := Join(parts, sep);
    var last := parts[|parts| - 1];
    assert j[0] == j[..|parts[0]|][0];
    assert j[|j| - 1] == j[|j| - |last|..][|last| - 1];
  }

  /** `lstrip` of a string whose head is not all whitespace stops inside the head. */
  lemma LStripAppend(a: string, b: string)
    requires !AllSpace(a)
    ensures LStrip(a + b) == LStrip(a) + b
  {
    var k := SkipSpaces(a, 0);
    assert k < |a|;
    var ab := a + b;
    assert SpaceBetween(ab, 0, k) by {
      forall m | 0 <= m < k ensures IsSpace(ab[m]) {
        assert ab[m] == a[m];
      }
    }
    assert ab[k] == a[k];
    SkipSpacesStops(ab, 0, k);
    assert ab[k..] == a[k..] + b;
  }

  /** `rstrip` keeps everything up to the last non-space character. */
  lemma RStripKeepsPrefix(s: string, p: string, c: char)
    requires StartsWith(s, p + [c]) && !IsSpace(c)
    ensures StartsWith(RStrip(s), p)
  {
    var j := BackSpaces(s, |s|);
    assert s[|p|] == (p + [c])[|p|] == c;
    assert RStrip(s)[..|p|] == s[..|p|] == (p + [c])[..|p|];
  }

  /** Stripping a string whose head has a non-space character, and whose tail
      opens with `p` and then a non-space character, keeps `p` right after the
      left-stripped head. */
  lemma StripKeepsHead(a: string, rest: string, p: string, c: char)
    requires !AllSpace(a)
    requires StartsWith(rest, p + [c]) && !IsSpace(c)
    ensures StartsWith(Strip(a + rest), LStrip(a) + p)
  {
    var x := a + rest;
    StripIsRStripOfLStrip(x);
    LStripAppend(a, rest);
    var l := LStrip(a) + rest;
    ConcatPrefix(LStrip(a), rest, p + [c]);
    assert LStrip(a) + (p + [c]) == LStrip(a) + p + [c];
    RStripKeepsPrefix(l, LStrip(a) + p, c);
  }

  /** Whitespace in front of a string does not change its `lstrip`. */
  lemma LStripBlankHead(w: string, s: string)
    requires AllSpace(w)
    ensures LStrip(w + s) == LStrip(s)
  {
    var k := SkipSpaces(s, 0);
    var x := w + s;
    assert SpaceBetween(x, 0, |w| + k) by {
      forall m | 0 <= m < |w| + k ensures IsSpace(x[m]) {
        if m >= |w| { assert x[m] == s[m - |w|]; }
      }
    }
    assert |w| + k < |x| ==> x[|w| + k] == s[k];
    SkipSpacesStops(x, 0, |w| + k);
    assert x[|w| + k..] == s[k..];
  }

  /** Whitespace in front of a string does not change its strip. */
  lemma StripBlankHead(w: string, s: string)
    requires AllSpace(w)
    ensures Strip(w + s) == Strip(s)
  {
    StripIsRStripOfLStrip(w + s);
    StripIsRStripOfLStrip(s);
    LStripBlankHead(w, s);
  }

  /** The strip of a deeper bullet line `"    - " + t`, put after an outer
      bullet, is the two bullets followed by `t`. */
  lemma NestedBulletsStrip(t: string)
    requires t != "" && Trimmed(t)
    ensures Indent(0) + "- " + Strip(Indent(1) + "- " + Strip(t)) == "- - " + t
  {
    StripBetween(t, 0, |t|);
    assert t[0..|t|] == t;
    assert Indent(1) + "- " + t == Indent(1) + ("- " + t);
    StripBlankHead(Indent(1), "- " + t);
    StripBetween("- " + t, 0, |t| + 2);
    assert ("- " + t)[0..|t| + 2] == "- " + t;
    assert Indent(0) == "";
  }

  /** A string that opens with whitespace `p` and then a non-space `c` has `c`
      at the head of its strip. */
  lemma StripOpensAfterBlank(s: string, p: string, c: char)
    requires StartsWith(s, p + [c]) && AllSpace(p) && !IsSpace(c)
    ensures |Strip(s)| > 0 && Strip(s)[0] == c
  {
    var t := s[|p|..];
    assert s[|p|] == (p + [c])[|p|];
    assert s == p + t by { assert s[..|p|] == (p + [c])[..|p|]; }
    StripBlankHead(p, t);
    StripKeepsFirst(t);
  }

  /** A string that opens with a non-space character keeps it at the head of its strip. */
  lemma StripKeepsFirst(s: string)
    requires |s| > 0 && !IsSpace(s[0])
    ensures |Strip(s)| > 0 && Strip(s)[0] == s[0]
  {
    assert SkipSpaces(s, 0) == 0;
    assert !SpaceBetween(s, 0, |s|);
  }

  lemma ConcatPrefix(h: string, rest: string, p: string)
    requires StartsWith(rest, p)
    ensures StartsWith(h + rest, h + p)
  {
    assert (h + rest)[..|h + p|] == h + rest[..|p|];
  }

  /** `rstrip` leaves nothing exactly of a string that is whitespace only. */
  lemma RStripEmptyIffAllSpace(s: string)
    ensures RStrip(s) == "" <==> AllSpace(s)
  {
    var j := BackSpaces(s, |s|);
    if j > 0 {
      assert !IsSpace(s[j - 1]);
    }
  }

  /** The number of occurrences of `c` in `s`: `s.count(c)`. */
  function Count(s: string, c: char): nat {
    if |s| == 0 then 0 else (if s[0] == c then 1 else 0) + Count(s[1..], c)
  }

  lemma {:induction false} CountAppend(a: string, b: string, c: char)
    ensures Count(a + b, c) == Count(a, c) + Count(b, c)
  {
    if |a| == 0 {
      assert a + b == b;
    } else {
      assert (a + b)[1..] == a[1..] + b;
      CountAppend(a[1..], b, c);
    }
  }

  /** `c * n` for a one-character string `c`. */
  function RepeatChar(c: char, n: nat): (r: string)
    ensures |r| == n
    ensures forall i :: 0 <= i < n ==> r[i] == c
  {
    if n == 0 then "" else [c] + RepeatChar(c, n - 1)
  }

  /** `"    " * level`: four spaces per list nesting level. */
  function Indent(level: nat): (r: string)
    ensures |r| == 4 * level
    ensures forall i :: 0 <= i < |r| ==> r[i] == ' '
    ensures AllSpace(r)
  {
    RepeatChar(' ', 4 * level)
  }

  predicate IsDigit(c: char) {
    '0' <= c <= '9'
  }

  predicate AllDigits(s: string) {
    forall i :: 0 <= i < |s| ==> IsDigit(s[i])
  }

  function DigitChar(d: nat): (c: char)
    requires d < 10
    ensures IsDigit(c) && (c as int) - ('0' as int) == d
  {
    ('0' as int + d) as char
  }

  /** The value of a string of decimal digits (the reading of `int(s)` on such strings). */
  function DigitsValue(s: string): nat
    requires AllDigits(s)
  {
    if |s| == 0 then 0
    else 10 * DigitsValue(s[..|s| - 1]) + ((s[|s| - 1] as int) - ('0' as int))
  }

  /** `str(n)` for a natural number: its decimal digits, without leading zeros. */
  function NatToString(n: nat): string {
    if n < 10 then [DigitChar(n)] else NatToString(n / 10) + [DigitChar(n % 10)]
  }

  /** `str(n)` is a non-empty run of digits that starts with `0` only for zero. */
  lemma {:induction false} NatToStringDigits(n: nat)
    ensures var r := NatToString(n); |r| >= 1 && AllDigits(r) && (r[0] == '0' ==> n == 0)
  {
    if n >= 10 {
      NatToStringDigits(n / 10);
      var r := NatToString(n);
      assert r[0] == NatToString(n / 10)[0];
    }
  }

  /** Reading the digits back yields the number that was written. */
  lemma {:induction false} DecimalRoundTrip(n: nat)
    ensures AllDigits(NatToString(n)) && DigitsValue(NatToString(n)) == n
  {
    NatToStringDigits(n);
    if n >= 10 {
      var s := NatToString(n);
      assert s[..|s| - 1] == NatToString(n / 10);
      DecimalRoundTrip(n / 10);
    }
  }
}

=== FILE: tree.dfy ===
/** The parsed page, as the HTML parser hands it over, and the tree queries the
    converter asks of it (`find`, `find_all`, `get_text`, `.body`). */
module Tree {
  import opened Wrappers
  import opened Strings

  /** A text run, or an element with its tag name, attributes and ordered children. */
  datatype Node =
    | Text(text: string)
    | Element(tag: string, attrs: map<string, string>, children: seq<Node>)

  /** The children of an element; a text run has none. */
  function Children(n: Node): seq<Node> {
    match n
    case Text(_) => []
    case Element(_, _, cs) => cs
  }

  /** A search filter: a tag name (or a list of names), or a tag name together
      with one attribute that must carry a given value, as in `find("div", id="content")`. */
  datatype Query =
    | Named(names: seq<string>)
    | NamedWithAttr(name: string, key: string, value: string)

  predicate Matches(q: Query, n: Node) {
    && n.Element?
    && match q
       case Named(names) => n.tag in names
       case NamedWithAttr(name, key, value) => n.tag == name && key in n.attrs && n.attrs[key] == value
  }

  /** Every node below `n`, in document (pre-order) order; `n` itself is not included. */
  function Descendants(n: Node): seq<Node>
    decreases n
  {
    match n
    case Text(_) => []
    case Element(_, _, cs) => DescendantsOf(cs)
  }

  /** The nodes of a forest in document order: each node followed by its own descendants. */
  function DescendantsOf(ns: seq<Node>): seq<Node>
    decreases ns
  {
    if |ns| == 0 then [] else [ns[0]] + Descendants(ns[0]) + DescendantsOf(ns[1..])
  }

  /** The nodes of `ns` that match `q`, in their order. */
  function Select(q: Query, ns: seq<Node>): (r: seq<Node>)
    ensures forall x :: x in r <==> x in ns && Matches(q, x)
    ensures |r| <= |ns|
  {
    if |ns| == 0 then []
    else if Matches(q, ns[0]) then [ns[0]] + Select(q, ns[1..])
    else Select(q, ns[1..])
  }

  lemma {:induction false} SelectAppend(q: Query, a: seq<Node>, b: seq<Node>)
    ensures Select(q, a + b) == Select(q, a) + Select(q, b)
  {
    if |a| == 0 {
      assert a + b == b;
    } else {
      assert (a + b)[1..] == a[1..] + b;
      SelectAppend(q, a[1..], b);
    }
  }

  /** `tag.find_all(q)` where `ns` are the tag's children: all matching descendants in document order. */
  function FindAll(q: Query, ns: seq<Node>): (r: seq<Node>)
    ensures forall x :: x in r <==> Matches(q, x) && x in DescendantsOf(ns)
  {
    Select(q, DescendantsOf(ns))
  }

  /** `tag.find_all(q, recursive=False)`: the matching direct children only. */
  function FindChildren(q: Query, ns: seq<Node>): (r: seq<Node>)
    ensures forall x :: x in r <==> x in ns && Matches(q, x)
  {
    Select(q, ns)
  }

  function First(ns: seq<Node>): Option<Node> {
    if |ns| == 0 then None else Some(ns[0])
  }

  /** `tag.find(q)` where `ns` are the tag's children: a search that stops at the first match. */
  function Find(q: Query, ns: seq<Node>): Option<Node>
    decreases ns
  {
    if |ns| == 0 then None
    else if Matches(q, ns[0]) then Some(ns[0])
    else
      match FindBelow(q, ns[0])
      case Some(x) => Some(x)
      case None => Find(q, ns[1..])
  }

  /** The first match strictly below `n`. */
  function FindBelow(q: Query, n: Node): Option<Node>
    decreases n
  {
    match n
    case Text(_) => None
    case Element(_, _, cs) => Find(q, cs)
  }

  /** `find` returns exactly the first element `find_all` lists, and nothing when it lists none. */
  lemma {:induction false} FindIsFirstOfFindAll(q: Query, ns: seq<Node>)
    ensures Find(q, ns) == First(FindAll(q, ns))
    decreases ns
  {
    if |ns| > 0 {
      var d := DescendantsOf(ns);
      assert d == [ns[0]] + Descendants(ns[0]) + DescendantsOf(ns[1..]);
      SelectAppend(q, [ns[0]] + Descendants(ns[0]), DescendantsOf(ns[1..]));
      SelectAppend(q, [ns[0]], Descendants(ns[0]));
      FindBelowIsFirst(q, ns[0]);
      FindIsFirstOfFindAll(q, ns[1..]);
    }
  }

  lemma {:induction false} FindBelowIsFirst(q: Query, n: Node)
    ensures FindBelow(q, n) == First(Select(q, Descendants(n)))
    decreases n
  {
    match n
    case Text(_) =>
    case Element(_, _, cs) =>
      FindIsFirstOfFindAll(q, cs);
  }

  /** The contents of the text runs among `ds`, in order. */
  function TextsOf(ds: seq<Node>): (r: seq<string>)
    ensures |r| <= |ds|
  {
    if |ds| == 0 then []
    else match ds[0]
      case Text(s) => [s] + TextsOf(ds[1..])
      case Element(_, _, _) => TextsOf(ds[1..])
  }

  lemma {:induction false} TextsOfAppend(a: seq<Node>, b: seq<Node>)
    ensures TextsOf(a + b) == TextsOf(a) + TextsOf(b)
  {
    if |a| == 0 {
      assert a + b == b;
    } else {
      assert (a + b)[1..] == a[1..] + b;
      TextsOfAppend(a[1..], b);
    }
  }

  /** The text runs below a tag whose children are `ns`, in document order. */
  function TextRuns(ns: seq<Node>): seq<string> {
    TextsOf(DescendantsOf(ns))
  }

  /** `tag.get_text(sep)`: the text runs joined by `sep`. */
  function GetText(ns: seq<Node>, sep: string): string {
    Join(TextRuns(ns), sep)
  }

  lemma {:induction false} DescendantsOfAppend(a: seq<Node>, b: seq<Node>)
    ensures DescendantsOf(a + b) == DescendantsOf(a) + DescendantsOf(b)
  {
    if |a| == 0 {
      assert a + b == b;
    } else {
      assert (a + b)[1..] == a[1..] + b;
      DescendantsOfAppend(a[1..], b);
    }
  }

  /** The text of a single run is that run. */
  lemma GetTextOfText(s: string, sep: string)
    ensures GetText([Text(s)], sep) == s
  {
    assert [Text(s)][1..] == [];
    assert DescendantsOf([Text(s)]) == [Text(s)];
    assert TextsOf([Text(s)]) == [s];
  }

  /** The text of two runs of siblings: the text of each, with one separator
      between them when both hold text. */
  lemma GetTextAppend(a: seq<Node>, b: seq<Node>, sep: string)
    ensures TextRuns(a + b) == TextRuns(a) + TextRuns(b)
    ensures GetText(a + b, sep) ==
      if TextRuns(a) == [] then GetText(b, sep)
      else if TextRuns(b) == [] then GetText(a, sep)
      else GetText(a, sep) + sep + GetText(b, sep)
  {
    DescendantsOfAppend(a, b);
    TextsOfAppend(DescendantsOf(a), DescendantsOf(b));
    if TextRuns(a) == [] {
      assert TextRuns(a) + TextRuns(b) == TextRuns(b);
    } else if TextRuns(b) == [] {
      assert TextRuns(a) + TextRuns(b) == TextRuns(a);
    } else {
      JoinAppend(TextRuns(a), TextRuns(b), sep);
    }
  }

  function StripEach(ss: seq<string>): (r: seq<string>)
    ensures |r| == |ss|
    ensures forall i :: 0 <= i < |r| ==> r[i] == Strip(ss[i])
    ensures forall x :: x in r ==> Trimmed(x)
  {
    if |ss| == 0 then [] else [Strip(ss[0])] + StripEach(ss[1..])
  }

  /** Concatenating non-empty pieces that have no whitespace at either end gives
      a string with no whitespace at either end. */
  lemma {:induction false} ConcatTrimmed(parts: seq<string>)
    requires forall i :: 0 <= i < |parts| ==> parts[i] != "" && Trimmed(parts[i])
    ensures Trimmed(Concat(parts))
  {
    if |parts| > 1 {
      ConcatTrimmed(parts[1..]);
      JoinNonEmptyParts(parts[1..], "");
    }
  }

  /** After stripping, nothing is left exactly when every run was whitespace only. */
  lemma StripEachAllEmpty(ss: seq<string>)
    ensures NonEmpty(StripEach(ss)) == [] <==> forall i :: 0 <= i < |ss| ==> AllSpace(ss[i])
  {
    var t := StripEach(ss);
    forall i | 0 <= i < |ss| ensures t[i] == "" <==> AllSpace(ss[i]) {
      StripEmptyIffAllSpace(ss[i]);
    }
  }

  lemma {:induction false} StripEachAppend(a: seq<string>, b: seq<string>)
    ensures StripEach(a + b) == StripEach(a) + StripEach(b)
  {
    if |a| == 0 {
      assert a + b == b;
    } else {
      assert (a + b)[1..] == a[1..] + b;
      StripEachAppend(a[1..], b);
    }
  }

  /** The stripped text of a single run is that run, stripped. */
  lemma GetTextStrippedOfText(s: string)
    ensures GetTextStripped([Text(s)]) == Strip(s)
  {
    assert [Text(s)][1..] == [];
    assert DescendantsOf([Text(s)]) == [Text(s)];
    assert TextRuns([Text(s)]) == [s];
    assert StripEach([s]) == [Strip(s)];
    if Strip(s) == "" {
      assert NonEmpty([Strip(s)]) == [];
    } else {
      assert NonEmpty([Strip(s)]) == [Strip(s)] + NonEmpty([]);
    }
  }

  /** The stripped text of two runs of siblings is the stripped text of the
      first glued to that of the second, with nothing between them: the
      whitespace between runs is lost. */
  lemma GetTextStrippedAppend(a: seq<Node>, b: seq<Node>)
    ensures GetTextStripped(a + b) == GetTextStripped(a) + GetTextStripped(b)
  {
    DescendantsOfAppend(a, b);
    TextsOfAppend(DescendantsOf(a), DescendantsOf(b));
    StripEachAppend(TextRuns(a), TextRuns(b));
    NonEmptyAppend(StripEach(TextRuns(a)), StripEach(TextRuns(b)));
    ConcatAppend(NonEmpty(StripEach(TextRuns(a))), NonEmpty(StripEach(TextRuns(b))));
  }

  /** The stripped text of a run followed by an element holding one run: the
      two runs stripped on their own, with nothing between them. */
  lemma TwoRunsStripped(a: string, tag: string, attrs: map<string, string>, b: string)
    ensures GetTextStripped([Text(a), Element(tag, attrs, [Text(b)])]) == Strip(a) + Strip(b)
  {
    var e := Element(tag, attrs, [Text(b)]);
    assert [Text(a), e] == [Text(a)] + [e];
    GetTextStrippedAppend([Text(a)], [e]);
    GetTextStrippedOfText(a);
    OneRunElementStripped(tag, attrs, b);
  }

  /** An element holding one text run has the stripped text of that run. */
  lemma OneRunElementStripped(tag: string, attrs: map<string, string>, b: string)
    ensures GetTextStripped([Element(tag, attrs, [Text(b)])]) == Strip(b)
  {
    var e := Element(tag, attrs, [Text(b)]);
    assert [e][1..] == [];
    assert [Text(b)][1..] == [];
    assert DescendantsOf([Text(b)]) == [Text(b)];
    assert DescendantsOf([e]) == [e, Text(b)];
    assert [e, Text(b)][1..] == [Text(b)];
    assert TextRuns([e]) == TextRuns([Text(b)]);
    GetTextStrippedOfText(b);
  }

  /** `tag.get_text(strip=True)`: every run stripped, empty runs dropped, the rest
      glued together; the result has no whitespace at either end. */
  function GetTextStripped(ns: seq<Node>): (r: string)
    ensures Trimmed(r)
    ensures r == "" <==> forall i :: 0 <= i < |TextRuns(ns)| ==> AllSpace(TextRuns(ns)[i])
  {
    var runs := TextRuns(ns);
    var parts := NonEmpty(StripEach(runs));
    assert forall i :: 0 <= i < |parts| ==> parts[i] in StripEach(runs);
    ConcatTrimmed(parts);
    JoinNonEmptyParts(parts, "");
    StripEachAllEmpty(runs);
    Concat(parts)
  }
}

=== FILE: wrappers.dfy ===
/** An optional value, and the outcome of the content locator: a value or the
    reason there is none. */
module Wrappers {

  datatype Option<+T> = None | Some(value: T)

  datatype Result<+R, +E> = Success(value: R) | Failure(error: E)
}
